=== FILE: README.md ===
# Order tracking lookup, modelled in Dafny

This project models the decision logic of the order-tracking service in
`app/main.py`. The service has one endpoint, `GET /order-lookup`. It takes an
order number and a customer email, finds the order in the commerce system
(Commerce7, "C7"), checks that the email belongs to the order's customer and,
when the shipping-tracking service (Wineshipping, "WS") is enabled, asks it
for a better status line and a tracking link. The answer is either a found
body, `Order {id} found. Items: {items}. {status line}`, with an optional
link, or the single not-found body, which names only the order id as sent.

Every HTTP exchange is replaced by its reply, given as an input:

- `C7Resolve.C7Replies` holds the replies to the search, the order-detail
  request and the customer request. Each one is `None` when the call raised,
  when the body was empty or null, or when reading it raised. The service
  turns all of these into "no order".
- `WsTracking.WsReply` is a transport error, or a status code with a body
  that may or may not be JSON.

Each operation also returns the requests it attempts, in order. The
properties can therefore say which requests follow from which inputs, for
example that an id failing the gate sends nothing. An attempted request
leaves the service only when the commerce-system credentials are
configured: otherwise `_c7_headers` raises before `client.get` is called
(app/main.py:84-85, 158), and the reply reads as `None`.

Modules and files:

| file | module | models |
|---|---|---|
| `wrappers.dfy` | `Wrappers` | `Option` |
| `text.dfy` | `Text` | ASCII versions of Python's `str.strip`, `str.lower`, `str.isdigit`, `str(int)`, `str.split`, `str.join`, and the truthiness of optional strings |
| `order_id.dfy` | `OrderId` | the default `ORDER_ID_REGEX` gate; `_parse_order_number`, including Python's `int()` grammar |
| `c7_records.dfy` | `C7` | the parts of the C7 JSON that the service reads |
| `c7_status.dfy` | `C7Status` | `_status_line_from_c7` |
| `c7_items.dfy` | `C7Items` | `_extract_items_from_c7` and `_format_items`; an insertion-ordered dict is a sequence of pairs with unique keys |
| `c7_tracking.dfy` | `C7Tracking` | `_extract_tracking_from_c7`, as recursive reference definitions plus the source's nested loops |
| `c7_resolve.dfy` | `C7Resolve` | `fetch_c7_order_by_number_and_email` |
| `ws_tracking.dfy` | `WsTracking` | `fetch_ws_tracking` and `_status_line_from_ws` |
| `access.dfy` | `Access` | `require_api_key`, and the choice of candidate address in the IP-allowlist middleware |
| `lookup.dfy` | `Lookup` | `order_lookup` and the endpoint (403, then 401, then the lookup); the as-written behaviour of the finding below |
| `examples_40500.dfy` | `Example40500` | a worked lookup: order 40500 with two wines, fulfilled and delivered, found for its owner |

The route matches `^\d{4,6}$` against `order_id.strip()` (app/main.py:288),
so `#40500` gets the not-found body before `_parse_order_number`, which
would drop the `#`, ever runs (`OrderId.GateRejectsHash`). The parser is
modelled on its own terms all the same, `#` and whitespace handling
included, since a configured `ORDER_ID_REGEX` may admit more than the
default. `str.strip()` and `int()` skip different whitespace: the first also
removes the separators 0x1C-0x1F, the second only space and `\t` to `\r`
(`OrderId.SeparatorAfterHashRefused`).

## Model

| member | source | states |
|---|---|---|
| `Text.Lower` | app/main.py:117 | `str.lower()` keeps the length, turns each ASCII capital into its lower-case letter (code + 32) and keeps every other character, so no capital is left |
| `Text.Strip` | app/main.py:102 | the result has no whitespace at either end, and an input without edge whitespace is returned unchanged |
| `Text.StripRemovesOnlySpace` | app/main.py:102 | strip removes whitespace only: the result is a contiguous slice of the input, and everything before and after it is whitespace |
| `Text.DecimalOfNatToString` | app/main.py:176 | `str(n)` is a digit string whose decimal value is n, so the search query names the parsed number |
| `Text.SplitJoin` | app/main.py:63 | splitting the join of separator-free pieces on the separator gives back the pieces |
| `Text.JoinSplit` | app/main.py:63 | joining the pieces of a split on the separator gives back the string |
| `OrderId.MatchesDefaultPattern` | app/main.py:288 | an id that passes the default gate is at least four characters long and its stripped digits denote a number below a million |
| `OrderId.GateAcceptsPaddedDigits` | app/main.py:288 | four to six digits pass the gate whatever whitespace surrounds them, e.g. `" 40500 "` |
| `OrderId.GateRejectsHash` | app/main.py:101-104 | the default gate refuses every id with a leading `#`, although the parser drops the `#` and reads the rest as `int()` would |
| `OrderId.ParseOrderNumber` | app/main.py:101-108 | the parse succeeds exactly when the stripped text, with one leading `#` dropped and then `int()`'s own whitespace dropped, is a Python integer literal; otherwise it gives None (no digit limit, see below) |
| `OrderId.PyInt` | app/main.py:106-108 | `int()` succeeds exactly on an optionally signed run of digit groups once space and `\t` to `\r` are dropped at both ends; its value is the decimal value of the literal's digits, negated exactly when the literal starts with '-' (no digit limit, see below) |
| `OrderId.IntStrip` | app/main.py:106 | the text `int()` reads has no space or `\t` to `\r` at either end, and text without such whitespace at its ends is read unchanged |
| `OrderId.SeparatorAfterHashRefused` | app/main.py:102-108 | a separator 0x1C-0x1F before an integer literal is stripped and the number parses, but after a `#` it survives to `int()` and the parse gives None |
| `OrderId.PyIntOfIntToString` | app/main.py:106 | `int(str(i)) == i` for every integer |
| `OrderId.ParseOrderNumberRoundTrip` | app/main.py:101-108 | a number written plainly, or after a `#`, parses back to itself |
| `OrderId.GateImpliesParse` | app/main.py:20 | every id passing the default 4-to-6-digit gate parses, to the value of its digits, which lies in 0..999999 |
| `C7Status.StatusLineFromC7` | app/main.py:116-131 | the line is always one of the seven fixed sentences; for each sentence, it is chosen exactly when the lower-cased fulfillment/shipping statuses fall in that sentence's cell of the table, with unknown fulfillment statuses giving the status-available sentence |
| `C7Status.StatusLineCaseInsensitive` | app/main.py:117-118 | orders whose statuses agree once lower-cased get the same line |
| `C7Status.ShippingStatusOnlyForFulfilled` | app/main.py:119-131 | the shipping status changes the line only when the fulfillment status is "fulfilled" |
| `C7Items.TitleOf` | app/main.py:136 | the title is never empty: productTitle when truthy, else title when truthy, else sku when truthy, else "Item" |
| `C7Items.QtyOf` | app/main.py:137 | the quantity is never 0: a present non-zero quantity as it is, a missing or zero one as 1 |
| `C7Items.Aggregate` | app/main.py:134-138 | titles are unique; each title belongs to some line and every line's title is present; each total equals the sum of that title's line quantities; titles appear in the order of their first line |
| `C7Items.Bump` | app/main.py:138 | `out[t] = out.get(t, 0) + q` adds q to an existing title in place, or appends (t, q) at the end, and changes nothing else |
| `C7Items.ExtractItems` | app/main.py:133-139 | the result is never empty; an order without lines gives exactly `{"Items": 1}`; otherwise it is the aggregate |
| `C7Items.FirstIndex` | app/main.py:135-138 | the index of the first line under a title: that line has the title and no earlier one does |
| `C7Items.Entries` | app/main.py:111 | one `"qty x title"` entry per tally entry, in tally order |
| `C7Items.FormatItems` | app/main.py:110-111 | an empty tally renders as ""; otherwise the rendering starts with the first entry's text and ends with the last entry's |
| `C7Items.FormatItemsCons` | app/main.py:110-111 | the rendering is the first entry alone, or the first entry, `", "`, and the rendering of the rest |
| `C7Tracking.IsShipped` | app/main.py:145 | a fulfillment is shipped exactly when its type is present and lower-cases to "shipped" |
| `C7Tracking.ExtractTracking` | app/main.py:141-153 | the source's two nested loops compute exactly the reference numbers and the reference carrier |
| `C7Tracking.ShippedNumbersSound` | app/main.py:144-149 | every collected number is non-empty and comes from the list of a shipped fulfillment |
| `C7Tracking.ShippedNumbersComplete` | app/main.py:144-149 | every truthy number of every shipped fulfillment is collected |
| `C7Tracking.ShippedNumbersAppend` | app/main.py:144-149 | the numbers of concatenated fulfillment lists are the concatenated numbers: fulfillment order is kept |
| `C7Tracking.TruthyNumbersSound` | app/main.py:147-149 | every number kept from a list is non-empty and is an element of that list |
| `C7Tracking.TruthyNumbersComplete` | app/main.py:147-149 | every truthy element of a list is kept |
| `C7Tracking.ShippedNumbersIgnoresUnshipped` | app/main.py:145 | fulfillments that are not shipped give no numbers and no carrier |
| `C7Tracking.FirstCarrierSpec` | app/main.py:150-152 | the carrier is None exactly when no shipped fulfillment has a truthy carrier; otherwise it is the non-empty carrier of the first shipped fulfillment that has one |
| `C7Resolve.IsMatch` | app/main.py:183 | only an object entry can match, only a non-negative number, and a number that rendered as "None" never matches |
| `C7Resolve.IsMatchOfRendered` | app/main.py:183 | an entry whose number is the text of an integer m matches exactly the order number m, and never when m is negative |
| `C7Resolve.FirstMatch` | app/main.py:183 | the lazy scan returns the first entry whose number is a digit string equal to n, after objects only; it gives None exactly when the scan stops, at the end or at a non-object, before any match |
| `C7Resolve.EmailOnRecord` | app/main.py:223-225 | true exactly when no email entry is unreadable and some entry, lower-cased, equals the lower-cased email |
| `C7Resolve.Resolve` | app/main.py:165-230 | at most three requests, starting with the search for `str(n)`; no request at all exactly when the id does not parse; a released order is the detail reply, after all three requests |
| `C7Resolve.ResolveNumber` | app/main.py:172-230 | after parsing, the search is always sent first; a released order is the detail reply, after exactly three requests |
| `C7Resolve.FirstMatchReached` | app/main.py:183-193 | the scan yields a match with an id exactly when some entry with an id matches and every entry before it is a non-matching object |
| `C7Resolve.ResolveReleasesIffOwned` | app/main.py:165-230 | fail-closed: the order is released exactly when the id parses, the search reaches a match with an id, the detail has a truthy customer id, and the customer has the email on record |
| `C7Resolve.ResolveNumberReleasesIff` | app/main.py:172-230 | the same, once the number is parsed |
| `C7Resolve.UnparsableSendsNothing` | app/main.py:166-170 | an id that does not parse sends nothing and finds nothing |
| `C7Resolve.FailedSearchStops` | app/main.py:174-187 | a failed search sends only the search, finds nothing, and never reads the later replies |
| `C7Resolve.FailedDetailStops` | app/main.py:195-212 | a failed detail fetch or a falsy customer id finds nothing, sends at most two requests, and never reads the customer reply |
| `C7Resolve.EmailCaseInsensitive` | app/main.py:223-225 | emails that agree once lower-cased get the same resolution |
| `C7Resolve.EmailOnRecordCaseInsensitive` | app/main.py:223-225 | the ownership check gives the same answer for emails that agree once lower-cased |
| `C7Resolve.ResolveNumberEmailOnlyViaRecord` | app/main.py:223-230 | the email affects the resolution only through the ownership check |
| `C7Resolve.WrongEmailFails` | app/main.py:223-227 | a customer none of whose emails matches never releases the order |
| `C7Resolve.OwnerFindsOrder` | app/main.py:165-230 | with a search answering the order under its number, a detail with a customer id, and a customer holding the email, the detail is released after exactly the search, detail and customer requests |
| `WsTracking.FetchWsTracking` | app/main.py:232-245 | the service is asked exactly when it is enabled, has a key, and there are numbers; data comes back exactly on a 2xx JSON reply other than `null`; no data exactly when it was not asked, answered 404, or answered 2xx with a JSON `null` body (`r.json()` is None); every other case is a failure. Line 240 is read as the property `r.text`, the corrected form of the finding below |
| `WsTracking.Picked` | app/main.py:249 | `details or packages or []`: the first truthy of the two lists, else a falsy value |
| `WsTracking.FirstPackage` | app/main.py:250 | the first element of the picked list, or the empty package when that list is falsy |
| `WsTracking.StatusOf` | app/main.py:251 | statusDescription when truthy, else carrierStatus when truthy, else "in transit"; never empty |
| `WsTracking.UrlOf` | app/main.py:253 | trackingUrl when truthy, else embeddedCarrierTrackingUrl as it is |
| `WsTracking.PackageLine` | app/main.py:254-256 | the line is `Order is on its way ({status}).`, followed by ` Estimated delivery {eta}.` exactly when eta is truthy |
| `WsTracking.PackageLineExample` | app/main.py:251-256 | a package with a status description and a delivery date gives `Order is on its way ({status}). Estimated delivery {eta}.` |
| `WsTracking.StatusLineFromWs` | app/main.py:247-260 | never fails: a malformed payload gives the fixed on-its-way sentence with no link, and exactly then that sentence; otherwise it gives the first package's line and link |
| `WsTracking.OnlyFirstPackageRead` | app/main.py:250 | elements after the first of the picked list never change the line or the link |
| `WsTracking.DetailsTakePrecedence` | app/main.py:249 | when `details` is a non-empty list, `packages` is never read |
| `WsTracking.NoPackagesInTransit` | app/main.py:249-257 | with neither list present, the line is `Order is on its way (in transit).` and there is no link |
| `Access.ApiKeyAccepted` | app/main.py:74-78 | accepted exactly when the header is present and equals the configured key, and that key is non-empty |
| `Access.FirstKept` | app/main.py:63-64 | the index of the first piece that is not blank once stripped: every earlier piece is blank, and it is the number of pieces exactly when all of them are blank |
| `Access.Chain` | app/main.py:63 | the kept hops are stripped and non-blank, no more than the pieces; the chain is empty exactly when every piece is blank, and otherwise starts with the first non-blank piece, stripped |
| `Access.ChainAppend` | app/main.py:63 | the chain of two runs of pieces is the first run's chain followed by the second's, so the hops keep their order |
| `Access.CandidateIp` | app/main.py:62-64 | the candidate is the first forwarded hop that is not blank, stripped and non-empty; when every hop is blank, it is the client host, or "" without a client |
| `Access.CandidateSingleHop` | app/main.py:62-64 | a header holding one non-blank address makes that address, stripped, the candidate |
| `Access.CandidateWithoutHeader` | app/main.py:62-64 | without a forwarded header, the client host is the candidate, or "" when there is no client |
| `Access.CandidateIsFirstHop` | app/main.py:63-64 | a non-blank first forwarded hop, stripped, is the candidate, whatever follows it and whatever the client host |
| `Access.CandidateSkipsBlankHop` | app/main.py:63 | a blank first hop is skipped |
| `Access.ForwardedHopDecides` | app/main.py:61-69 | with enforcement on, a request whose first forwarded hop is allowed passes, whatever its real client host |
| `Lookup.NotFoundContext` | app/main.py:113-114 | the body is "Order ", then the id exactly as sent, then the fixed tail |
| `Lookup.NotFoundContextInjective` | app/main.py:113-114 | different ids give different not-found bodies |
| `Lookup.FoundContext` | app/main.py:318 | a found body is, by position, `Order {id} found. Items: `, then the rendered items, then `. `, then the status line |
| `Lookup.FirstThree` | app/main.py:312 | `tracking_numbers[:3]` is a prefix of at most three numbers, all of them when there are fewer than three |
| `Lookup.StatusAndLink` | app/main.py:304-316 | the tracking service is asked exactly when it is enabled, has a key, and the order has numbers, and then for the first three; its line and link replace the C7 line exactly when it returns truthy data; otherwise the C7 line is kept and there is no link |
| `Lookup.OrderLookup` | app/main.py:282-320 | an id failing the gate gets the not-found body with no request; the answer is found exactly when the gate passes and the resolution releases the order; otherwise it is the not-found body for the raw id; the C7 requests are those of the resolution; a tracking request is sent only for a found order; a found body is exactly `Order {id} found. Items: {items}. {line}` with the line and link of StatusAndLink |
| `Lookup.Endpoint` | app/main.py:59-78 | 403 exactly when the allowlist refuses; 401 exactly when the allowlist passes and the key does not; neither sends any request; otherwise the lookup's answer |
| `Lookup.NotFoundIndistinguishable` | app/main.py:288-300 | any two not-found answers for the same id are identical, whatever the email, the configuration and the upstream replies |
| `Lookup.WsNeverChangesFound` | app/main.py:310-316 | the tracking settings and reply never decide whether the order is found |
| `Lookup.DisabledWsKeepsC7Line` | app/main.py:307-318 | with the tracking service disabled, a found order carries the C7 line, no link, and no tracking request |
| `Lookup.WsFailureKeepsC7Line` | app/main.py:310-316 | a tracking transport error or non-2xx reply leaves the C7 line in place with no link |
| `Lookup.FoundContextShape` | app/main.py:318 | every found body starts with `Order {id as sent} found. Items: ` |
| `Lookup.OrderLookupAsWritten` | app/main.py:155-163 | as written, every lookup answers not found, and an id passing the gate attempts exactly one request, the search |
| `Lookup.AsWrittenNeverFound` | app/main.py:240 | as written, the answer is the not-found body for every id, email and upstream state |
| `Example40500.ResolvesForOwner` | app/main.py:165-230 | order 40500, searched by its owner with the email in another letter case, is released after the three requests |
| `Example40500.DeliveredLine` | app/main.py:123-125 | "Fulfilled" and "Delivered" give "Order was delivered." |
| `Example40500.ItemsOfTheOrder` | app/main.py:133-139 | two lines, Wine A x2 and Wine B with no quantity, render as "2 x Wine A, 1 x Wine B" |
| `Example40500.TwoTitles` | app/main.py:133-139 | two lines under different titles give two entries in line order |
| `Example40500.FoundForOwner` | app/main.py:318 | with the tracking service disabled, the owner gets exactly "Order 40500 found. Items: 2 x Wine A, 1 x Wine B. Order was delivered." with no link, after the three C7 requests |

## Left out

- HTTP and I/O: httpx clients, URLs, query parameters, timeouts, `raise_for_status` internals and the async context managers. Each exchange is represented only by its reply, as described above.
- FastAPI plumbing: routing, `Depends`/`Header`/`Query`, request validation (a missing parameter is a 422 from the framework), `JSONResponse` serialisation, and `EmailStr` validation and normalisation of `customer_email`. The model takes the email as the handler receives it.
- Environment loading (app/main.py:18-39), including the parsing of `ALLOWED_PROXY_IPS` and the float timeouts. Configuration is a plain `Lookup.Config` value with no defaults. The source's defaults are the API key `"change-me"`, the allowlist `{"34.228.46.223", "34.230.166.144"}` with enforcement on, the tracking service off, and empty commerce-system credentials.
- `_c7_headers` and `_ws_headers` (base64 and header building). A missing C7 credential (the default, app/main.py:31-33) makes `_c7_headers` raise before the request is sent. The handler sees a failed call, the same as a `None` reply, but the model's call log still lists the attempted request: it records attempts and assumes configured credentials.
- The `/health` endpoint and every `print`.
- Regular expressions in general. Only the default pattern `^\d{4,6}$` is modelled.
- Unicode: `str.strip`, `str.lower`, `str.isdigit`, `int()` and `\d` are modelled on ASCII. Python also accepts Unicode whitespace, letters and digits there. Within ASCII, `str.strip` removes space, `\t` to `\r` and 0x1C-0x1F, and `int()` skips only space and `\t` to `\r`.
- OrderId.PyInt: does not model the limit of 4300 digits that CPython 3.11 and later put on `int()` of a string (a longer literal raises ValueError, so the parse gives None). The limit depends on the interpreter version and on `sys.set_int_max_str_digits`. For the same reason `OrderId.PyIntOfIntToString` and `OrderId.ParseOrderNumberRoundTrip` hold here for every integer, but in the source only for those of at most 4300 digits. Ids that pass the default gate have at most six digits.
- JSON values of unexpected types. The model covers only the shapes its records can hold. Outside them:
  - On the found path, app/main.py:304-307 run outside any `try`. A truthy non-string `fulfillmentStatus`, `shippingStatus` or fulfillment `type` (`.lower()` raises; a falsy one becomes `""` through `or ""`), a line item that is not an object (`.get` raises), or a quantity that `int()` cannot read, such as `"two"`, makes `order_lookup` raise, and the service answers 500. `Lookup.Response` has no 500 case, so none of this is modelled.
  - A quantity given as a numeric string or a float is read by `int()` (`"3"` gives 3, `2.7` gives 2); the model holds quantities as integers only.
  - A `trackingNumbers` value that is a string, not a list, is iterated character by character at line 147, so each non-empty character becomes a tracking number; the model holds a list.
  - A tracking number or carrier that is not a string is passed through `str()`, and a truthy title that is not a string is rendered by the f-string at line 111; the model holds strings.
  - In the tracking payload, only a payload that is not an object, a picked `details`/`packages` value that is not a list, or a first element that is not an object reaches the `except` at app/main.py:258; the model covers these as `WsTracking.Malformed` (the fixed on-its-way sentence). A first element that is an object never raises: every `.get` succeeds. Wrongly typed package fields are not modelled. A non-string `statusDescription`, `carrierStatus` or `estimatedDeliveryDate` is rendered by the f-string at lines 254-256. A non-string truthy `trackingUrl` or `embeddedCarrierTrackingUrl` becomes the link and can fail the `FoundResponse` validation at line 320, which answers 500.
  - A customer `emails` entry that is not an object, or whose email is not a string, makes line 223 raise; the exception reaches the `except` at line 294 and gives not found, covered as `C7.EmailEntry.Unreadable`.
- `C7.SearchEntry.orderNumber` holds the text `str(o.get("orderNumber"))` that the source tests, not the raw JSON value; a missing or null number is the text "None". `int(o["orderNumber"])` is taken to agree with the decimal value of that text whenever it is a digit string, which holds for the integers and strings the commerce system sends.
- The pydantic checks of `FoundResponse`/`NotFoundResponse`. They accept every value the model produces; they can refuse only the wrongly typed link above, which is not modelled.
- The `_carrier` result of `_extract_tracking_from_c7` is computed (`C7Tracking.FirstCarrier`), but `order_lookup` never uses it.

## Findings

| source | as written | input that shows it | evidently intended | confidence | as-written member | corrected member |
|---|---|---|---|---|---|---|
| app/main.py:160 | `text = await r.text()` calls httpx's `Response.text`, which is a `str` property, so `r.text()` raises `TypeError: 'str' object is not callable` once the request has been sent, before anything is awaited. The same line is at app/main.py:240. `order_lookup` catches the error and answers not found. | any id passing the gate, e.g. `40500` with the owner's email and a commerce system that holds the order: the answer is 404 | read the body with `r.text` (no `await`) and go on to `raise_for_status()` and `r.json()` | not executed | `Lookup.OrderLookupAsWritten` (with `Lookup.AsWrittenNeverFound`) | `Lookup.OrderLookup` (with `Example40500.FoundForOwner`) |

=== FILE: access.dfy ===
/**
 * The two request guards: the proxy allowlist, which picks a candidate client
 * address from the X-Forwarded-For header, and the API-key check.
 */
module Access {
  import opened Wrappers
  import opened Text

  /** `require_api_key`: the header must be present, non-empty and equal to the configured key. */
  function ApiKeyAccepted(header: Option<string>, apiKey: string): (ok: bool)
    ensures ok <==> header == Some(apiKey) && apiKey != ""
  {
    Truthy(header) && header.value == apiKey
  }

  /** Every piece before position k strips to nothing. */
  predicate BlankBefore(parts: seq<string>, k: nat)
    requires k <= |parts|
  {
    forall i :: 0 <= i < k ==> Strip(parts[i]) == ""
  }

  /**
   * The index of the first piece that is not blank once stripped, or |parts|
   * when every piece is blank.
   */
  function FirstKept(parts: seq<string>): (k: nat)
    ensures k <= |parts|
    ensures k < |parts| ==> Strip(parts[k]) != ""
    ensures BlankBefore(parts, k)
  {
    if parts == [] || Strip(parts[0]) != "" then 0
    else
      var k := FirstKept(parts[1..]);
      assert forall i :: 1 <= i < k + 1 ==> parts[i] == parts[1..][i - 1];
      k + 1
  }

  /**
   * `[ip.strip() for ip in parts if ip.strip()]`: the stripped pieces that are
   * not blank, in order. It is empty exactly when every piece is blank, and
   * otherwise it starts with the first non-blank piece, stripped.
   */
  function Chain(parts: seq<string>): (c: seq<string>)
    ensures |c| <= |parts|
    ensures forall k :: 0 <= k < |c| ==> c[k] != "" && NoEdgeSpace(c[k])
    ensures c == [] <==> FirstKept(parts) == |parts|
    ensures c != [] ==> c[0] == Strip(parts[FirstKept(parts)])
  {
    if parts == [] then []
    else if Strip(parts[0]) != "" then [Strip(parts[0])] + Chain(parts[1..])
    else Chain(parts[1..])
  }

  /** The kept form of one piece: the piece stripped, or nothing when it is blank. */
  function Kept(p: string): seq<string> {
    if Strip(p) != "" then [Strip(p)] else []
  }

  lemma {:induction false} ChainCons(p: string, ps: seq<string>)
    ensures Chain([p] + ps) == Kept(p) + Chain(ps)
  {
    var all := [p] + ps;
    assert all != [] && all[0] == p && all[1..] == ps;
    if Strip(p) != "" {
      assert Chain(all) == [Strip(p)] + Chain(ps);
    } else {
      assert Chain(all) == Chain(ps);
    }
  }

  /** The chain of a concatenation is the concatenation of the chains: hop order is kept. */
  lemma {:induction false} ChainAppend(a: seq<string>, b: seq<string>)
    ensures Chain(a + b) == Chain(a) + Chain(b)
  {
    if a == [] {
      assert a + b == b;
    } else {
      calc {
        Chain(a + b);
        { assert a + b == [a[0]] + (a[1..] + b); }
        Chain([a[0]] + (a[1..] + b));
        { ChainCons(a[0], a[1..] + b); }
        Kept(a[0]) + Chain(a[1..] + b);
        { ChainAppend(a[1..], b); }
        Kept(a[0]) + (Chain(a[1..]) + Chain(b));
        (Kept(a[0]) + Chain(a[1..])) + Chain(b);
        { ChainCons(a[0], a[1..]); assert [a[0]] + a[1..] == a; }
        Chain(a) + Chain(b);
      }
    }
  }

  /**
   * The address the allowlist is checked against: the first forwarded hop that
   * is not blank, stripped; when every hop is blank, the client host, or "".
   */
  function CandidateIp(xff: string, client: Option<string>): (ip: string)
    ensures var hops := Split(xff, ','); var k := FirstKept(hops);
      && (k == |hops| ==> ip == client.GetOr(""))
      && (k < |hops| ==> ip == Strip(hops[k]) && ip != "")
  {
    var chain := Chain(Split(xff, ','));
    if chain != [] then chain[0] else client.GetOr("")
  }

  /** The middleware's verdict: pass when the allowlist is not enforced or the candidate is on it. */
  function IpAllowed(enforce: bool, allowlist: set<string>, xff: string, client: Option<string>): bool {
    !enforce || CandidateIp(xff, client) in allowlist
  }

  /** Without a forwarded header the client host decides, or "" when there is no client. */
  lemma {:induction false} CandidateWithoutHeader(client: Option<string>)
    ensures CandidateIp("", client) == client.GetOr("")
  {
    SplitNoSeparator("", ',');
    assert Strip("") == "";
  }

  /** A header holding a single non-blank address makes that address, stripped, the candidate. */
  lemma {:induction false} CandidateSingleHop(hop: string, client: Option<string>)
    requires ',' !in hop && Strip(hop) != ""
    ensures CandidateIp(hop, client) == Strip(hop)
  {
    SplitNoSeparator(hop, ',');
  }

  /** A non-blank first hop is the candidate, trimmed, whatever follows it and whatever the client host. */
  lemma {:induction false} CandidateIsFirstHop(first: string, rest: string, client: Option<string>)
    requires ',' !in first && Strip(first) != ""
    ensures CandidateIp(first + "," + rest, client) == Strip(first)
  {
    SplitAtSeparator(first, rest, ',');
  }

  /** A blank first hop is skipped. */
  lemma {:induction false} CandidateSkipsBlankHop(first: string, rest: string, client: Option<string>)
    requires ',' !in first && Strip(first) == ""
    ensures CandidateIp(first + "," + rest, client) == CandidateIp(rest, client)
  {
    SplitAtSeparator(first, rest, ',');
    var parts := Split(first + "," + rest, ',');
    assert parts[1..] == Split(rest, ',');
  }

  /**
   * The allowlist trusts the forwarded header: with enforcement on, a request
   * whose first hop names an allowed address passes, whatever its real client host.
   */
  lemma {:induction false} ForwardedHopDecides(allowlist: set<string>, first: string, rest: string, client: Option<string>)
    requires ',' !in first && Strip(first) in allowlist && Strip(first) != ""
    ensures IpAllowed(true, allowlist, first + "," + rest, client)
  {
    CandidateIsFirstHop(first, rest, client);
  }
}

=== FILE: c7_items.dfy ===
/**
 * `_extract_items_from_c7` and `_format_items`. Python's insertion-ordered
 * dict from title to quantity is a sequence of (title, quantity) pairs with
 * unique titles, kept in first-insertion order.
 */
module C7Items {
  import opened Wrappers
  import opened Text
  import opened C7

  type Tally = seq<(string, int)>

  /** The title a line is counted under: productTitle, else title, else sku, else "Item". */
  function TitleOf(line: LineItem): (t: string)
    ensures t != ""
    ensures Truthy(line.productTitle) ==> t == line.productTitle.value
    ensures !Truthy(line.productTitle) && Truthy(line.title) ==> t == line.title.value
    ensures !Truthy(line.productTitle) && !Truthy(line.title) && Truthy(line.sku) ==> t == line.sku.value
    ensures !Truthy(line.productTitle) && !Truthy(line.title) && !Truthy(line.sku) ==> t == "Item"
  {
    Or(line.productTitle, Or(line.title, Or(line.sku, "Item")))
  }

  /** The quantity a line adds: a missing or zero quantity counts as 1. */
  function QtyOf(line: LineItem): (q: int)
    ensures q != 0
    ensures line.quantity.Some? && line.quantity.value != 0 ==> q == line.quantity.value
    ensures line.quantity.None? || line.quantity.value == 0 ==> q == 1
  {
    if line.quantity.None? || line.quantity.value == 0 then 1 else line.quantity.value
  }

  /** Some entry of the tally is keyed by title t. */
  predicate HasKey(t: Tally, title: string) {
    exists k :: 0 <= k < |t| && t[k].0 == title
  }

  predicate UniqueKeys(t: Tally) {
    forall i, j :: 0 <= i < j < |t| ==> t[i].0 != t[j].0
  }

  /** Some line of the order is counted under title t. */
  predicate HasTitle(lines: seq<LineItem>, t: string) {
    exists i :: 0 <= i < |lines| && TitleOf(lines[i]) == t
  }

  /** Sum of the quantities of the lines counted under title t. */
  function QtySum(lines: seq<LineItem>, t: string): int {
    if lines == [] then 0
    else
      var last := lines[|lines| - 1];
      QtySum(lines[..|lines| - 1], t) + (if TitleOf(last) == t then QtyOf(last) else 0)
  }

  lemma {:induction false} HasTitleSnoc(lines: seq<LineItem>, t: string)
    requires lines != []
    ensures HasTitle(lines, t) <==> HasTitle(lines[..|lines| - 1], t) || TitleOf(lines[|lines| - 1]) == t
  {
    var n := |lines| - 1;
    if HasTitle(lines, t) && TitleOf(lines[n]) != t {
      var i :| 0 <= i < |lines| && TitleOf(lines[i]) == t;
      assert lines[..n][i] == lines[i];
    }
    if HasTitle(lines[..n], t) {
      var i :| 0 <= i < n && TitleOf(lines[..n][i]) == t;
      assert lines[i] == lines[..n][i];
    }
  }

  /** Index of the first line counted under title t. */
  function FirstIndex(lines: seq<LineItem>, t: string): (k: nat)
    requires HasTitle(lines, t)
    ensures k < |lines| && TitleOf(lines[k]) == t
    ensures forall j :: 0 <= j < k ==> TitleOf(lines[j]) != t
  {
    var n := |lines| - 1;
    HasTitleSnoc(lines, t);
    if HasTitle(lines[..n], t) then
      var k := FirstIndex(lines[..n], t);
      assert forall j :: 0 <= j <= k ==> lines[j] == lines[..n][j];
      k
    else
      assert forall j :: 0 <= j < n ==> lines[j] == lines[..n][j];
      n
  }

  /** `out[t] = out.get(t, 0) + q`: adds q under t in place, or appends (t, q) when t is new. */
  function Bump(acc: Tally, t: string, q: int): (r: Tally)
    requires UniqueKeys(acc)
    ensures |r| == if HasKey(acc, t) then |acc| else |acc| + 1
    ensures forall k :: 0 <= k < |acc| ==> r[k].0 == acc[k].0
    ensures forall k :: 0 <= k < |acc| ==> r[k].1 == acc[k].1 + (if acc[k].0 == t then q else 0)
    ensures !HasKey(acc, t) ==> r[|acc|] == (t, q)
  {
    if |acc| == 0 then [(t, q)]
    else if acc[0].0 == t then
      assert HasKey(acc, t);
      var r := [(t, acc[0].1 + q)] + acc[1..];
      assert forall k :: 1 <= k < |acc| ==> r[k] == acc[k] && acc[k].0 != t;
      r
    else
      var rest := Bump(acc[1..], t, q);
      assert HasKey(acc, t) <==> HasKey(acc[1..], t) by {
        if HasKey(acc, t) {
          var k :| 0 <= k < |acc| && acc[k].0 == t;
          assert acc[1..][k - 1] == acc[k];
        }
        if HasKey(acc[1..], t) {
          var k :| 0 <= k < |acc[1..]| && acc[1..][k].0 == t;
          assert acc[k + 1] == acc[1..][k];
        }
      }
      var r := [acc[0]] + rest;
      assert forall k :: 1 <= k < |acc| ==> r[k] == rest[k - 1] && acc[1..][k - 1] == acc[k];
      r
  }

  /** The loop of `_extract_items_from_c7` over every line, before the empty-result default. */
  function Aggregate(lines: seq<LineItem>): (r: Tally)
    ensures UniqueKeys(r)
    ensures forall k :: 0 <= k < |r| ==> HasTitle(lines, r[k].0)
    ensures forall t :: HasTitle(lines, t) ==> HasKey(r, t)
    ensures forall k :: 0 <= k < |r| ==> r[k].1 == QtySum(lines, r[k].0)
    ensures forall i, j :: 0 <= i < j < |r| ==> FirstIndex(lines, r[i].0) < FirstIndex(lines, r[j].0)
  {
    if lines == [] then []
    else
      var n := |lines| - 1;
      var pre, last := lines[..n], lines[n];
      assert lines == pre + [last];
      var prev := Aggregate(pre);
      var r := Bump(prev, TitleOf(last), QtyOf(last));
      StepKeys(pre, last, prev, r);
      StepSums(pre, last, prev, r);
      StepOrder(pre, last, prev, r);
      r
  }

  lemma {:induction false} StepKeys(pre: seq<LineItem>, last: LineItem, prev: Tally, r: Tally)
    requires UniqueKeys(prev)
    requires forall k :: 0 <= k < |prev| ==> HasTitle(pre, prev[k].0)
    requires forall t :: HasTitle(pre, t) ==> HasKey(prev, t)
    requires r == Bump(prev, TitleOf(last), QtyOf(last))
    ensures UniqueKeys(r)
    ensures forall k :: 0 <= k < |r| ==> HasTitle(pre + [last], r[k].0)
    ensures forall t :: HasTitle(pre + [last], t) ==> HasKey(r, t)
  {
    BumpUnique(prev, TitleOf(last), QtyOf(last));
    forall u ensures HasTitle(pre + [last], u) <==> HasTitle(pre, u) || u == TitleOf(last) {
      HasTitleAppend(pre, last, u);
    }
    forall k | 0 <= k < |r| ensures HasTitle(pre + [last], r[k].0) {
      if k < |prev| {
        assert r[k].0 == prev[k].0;
      } else {
        assert r[k].0 == TitleOf(last);
      }
    }
    forall u | HasTitle(pre + [last], u) ensures HasKey(r, u) {
      if HasTitle(pre, u) {
        var k :| 0 <= k < |prev| && prev[k].0 == u;
        assert r[k].0 == u;
      } else {
        assert r[|prev|].0 == u;
      }
    }
  }

  lemma {:induction false} HasTitleAppend(pre: seq<LineItem>, last: LineItem, t: string)
    ensures HasTitle(pre + [last], t) <==> HasTitle(pre, t) || TitleOf(last) == t
  {
    var lines := pre + [last];
    assert lines[..|pre|] == pre;
    HasTitleSnoc(lines, t);
  }

  /** Bumping keeps the keys unique. */
  lemma {:induction false} BumpUnique(acc: Tally, t: string, q: int)
    requires UniqueKeys(acc)
    ensures UniqueKeys(Bump(acc, t, q))
  {
    var r := Bump(acc, t, q);
    if !HasKey(acc, t) {
      forall i | 0 <= i < |acc| ensures r[i].0 != t {
        assert acc[i].0 != t;
      }
    }
  }

  lemma {:induction false} StepSums(pre: seq<LineItem>, last: LineItem, prev: Tally, r: Tally)
    requires UniqueKeys(prev)
    requires forall t :: HasTitle(pre, t) ==> HasKey(prev, t)
    requires forall k :: 0 <= k < |prev| ==> prev[k].1 == QtySum(pre, prev[k].0)
    requires r == Bump(prev, TitleOf(last), QtyOf(last))
    ensures forall k :: 0 <= k < |r| ==> r[k].1 == QtySum(pre + [last], r[k].0)
  {
    var lines := pre + [last];
    assert lines[..|pre|] == pre;
    var t := TitleOf(last);
    if !HasKey(prev, t) {
      assert !HasTitle(pre, t);
      QtySumAbsent(pre, t);
    }
  }

  /** A title no line carries sums to zero. */
  lemma {:induction false} QtySumAbsent(lines: seq<LineItem>, t: string)
    requires !HasTitle(lines, t)
    ensures QtySum(lines, t) == 0
  {
    if lines != [] {
      HasTitleSnoc(lines, t);
      QtySumAbsent(lines[..|lines| - 1], t);
    }
  }

  lemma {:induction false} StepOrder(pre: seq<LineItem>, last: LineItem, prev: Tally, r: Tally)
    requires UniqueKeys(prev)
    requires forall k :: 0 <= k < |prev| ==> HasTitle(pre, prev[k].0)
    requires forall t :: HasTitle(pre, t) ==> HasKey(prev, t)
    requires forall i, j :: 0 <= i < j < |prev| ==> FirstIndex(pre, prev[i].0) < FirstIndex(pre, prev[j].0)
    requires r == Bump(prev, TitleOf(last), QtyOf(last))
    requires forall k :: 0 <= k < |r| ==> HasTitle(pre + [last], r[k].0)
    ensures forall i, j :: 0 <= i < j < |r| ==> FirstIndex(pre + [last], r[i].0) < FirstIndex(pre + [last], r[j].0)
  {
    var lines := pre + [last];
    var t := TitleOf(last);
    forall k | 0 <= k < |prev|
      ensures FirstIndex(lines, r[k].0) == FirstIndex(pre, prev[k].0) < |pre|
    {
      OldTitleKeepsIndex(pre, last, prev[k].0);
    }
    if !HasKey(prev, t) {
      NewTitleIndex(pre, last);
      assert r[|prev|].0 == t;
    }
    forall i, j | 0 <= i < j < |r|
      ensures FirstIndex(lines, r[i].0) < FirstIndex(lines, r[j].0)
    {
      if j == |prev| {
        assert FirstIndex(lines, r[j].0) == |pre|;
      }
    }
  }

  /** A title already counted in pre keeps its first index once a line is appended. */
  lemma {:induction false} OldTitleKeepsIndex(pre: seq<LineItem>, last: LineItem, u: string)
    requires HasTitle(pre, u)
    ensures HasTitle(pre + [last], u)
    ensures FirstIndex(pre + [last], u) == FirstIndex(pre, u) < |pre|
  {
    var lines := pre + [last];
    assert lines[..|pre|] == pre;
    FirstIndexPrefix(lines, u);
  }

  /** The appended line is the first one under its title when pre has no line under it. */
  lemma {:induction false} NewTitleIndex(pre: seq<LineItem>, last: LineItem)
    requires !HasTitle(pre, TitleOf(last))
    ensures HasTitle(pre + [last], TitleOf(last))
    ensures FirstIndex(pre + [last], TitleOf(last)) == |pre|
  {
    var lines := pre + [last];
    var t := TitleOf(last);
    HasTitleAppend(pre, last, t);
  }

  /** A title already present in the prefix keeps its first index when a line is appended. */
  lemma {:induction false} FirstIndexPrefix(lines: seq<LineItem>, t: string)
    requires lines != [] && HasTitle(lines[..|lines| - 1], t)
    ensures HasTitle(lines, t)
    ensures FirstIndex(lines, t) == FirstIndex(lines[..|lines| - 1], t) < |lines| - 1
  {
    var n := |lines| - 1;
    HasTitleSnoc(lines, t);
    var b := FirstIndex(lines[..n], t);
    assert lines[b] == lines[..n][b];
    assert forall j :: 0 <= j < b ==> lines[j] == lines[..n][j];
  }

  /** `_extract_items_from_c7`: the per-title totals, or {"Items": 1} when the order has no lines. */
  function ExtractItems(lines: seq<LineItem>): (r: Tally)
    ensures |r| > 0
    ensures lines == [] ==> r == [("Items", 1)]
    ensures lines != [] ==> r == Aggregate(lines)
    ensures UniqueKeys(r)
  {
    if lines == [] then [("Items", 1)]
    else
      assert HasTitle(lines, TitleOf(lines[0]));
      Aggregate(lines)
  }

  /** One rendered entry: "qty x title". */
  function Entry(e: (string, int)): string {
    IntToString(e.1) + " x " + e.0
  }

  /** `[f"{q} x {t}" for t, q in items.items()]`: one rendered entry per tally entry, in order. */
  function Entries(items: Tally): (r: seq<string>)
    ensures |r| == |items|
    ensures forall i :: 0 <= i < |items| ==> r[i] == Entry(items[i])
  {
    if items == [] then [] else [Entry(items[0])] + Entries(items[1..])
  }

  /** `_format_items`: the entries joined by ", " in the tally's order. */
  function FormatItems(items: Tally): (r: string)
    ensures items == [] ==> r == ""
    ensures items != [] ==>
      var first, last := Entry(items[0]), Entry(items[|items| - 1]);
      && |first| <= |r| && r[..|first|] == first
      && |last| <= |r| && r[|r| - |last|..] == last
  {
    var parts := Entries(items);
    if parts == [] then ""
    else
      JoinEnds(parts, ", ");
      Join(parts, ", ")
  }

  /** The rendering lists the first entry, then ", ", then the rest. */
  lemma {:induction false} FormatItemsCons(e: (string, int), rest: Tally)
    ensures rest == [] ==> FormatItems([e] + rest) == Entry(e)
    ensures rest != [] ==> FormatItems([e] + rest) == Entry(e) + ", " + FormatItems(rest)
  {
    var items := [e] + rest;
    assert items[1..] == rest;
    var parts := Entries(items);
    assert parts == [Entry(e)] + Entries(rest);
    assert parts[1..] == Entries(rest);
  }
}

=== FILE: c7_records.dfy ===
/**
 * The commerce-system records the lookup reads. Only the fields the service
 * consults are kept. A string field is None when the key is absent or its
 * value is null; a missing or null list is the empty sequence, which Python's
 * `x or []` makes indistinguishable from an empty list.
 */
module C7 {
  import opened Wrappers

  /** One order line: the three candidate titles and the quantity. */
  datatype LineItem = LineItem(
    productTitle: Option<string>,
    title: Option<string>,
    sku: Option<string>,
    quantity: Option<int>)

  /** One fulfillment: its type and the tracking numbers and carrier of its `shipped` object. */
  datatype Fulfillment = Fulfillment(
    kind: Option<string>,
    trackingNumbers: seq<Option<string>>,
    carrier: Option<string>)

  /** A full order as the detail endpoint returns it. */
  datatype Order = Order(
    fulfillmentStatus: Option<string>,
    shippingStatus: Option<string>,
    customerId: Option<string>,
    items: seq<LineItem>,
    fulfillments: seq<Fulfillment>)

  /**
   * One entry of the order search result: an object with its order number as
   * str() renders it ("None" when the key is absent or null) and its internal
   * id (None when the key is absent or null), or a value that is not an
   * object, on which `.get` raises.
   */
  datatype SearchEntry =
    | OrderEntry(orderNumber: string, id: Option<string>)
    | NotAnObject

  /**
   * One entry of a customer's `emails` list: an object without an `email` key
   * (read as ""), an object whose email is a string, or anything on which
   * `e.get("email", "").lower()` raises (a non-object, a null or non-string email).
   */
  datatype EmailEntry = NoEmailKey | Email(address: string) | Unreadable

  /** A customer record: its list of email entries. */
  datatype Customer = Customer(emails: seq<EmailEntry>)
}

=== FILE: c7_resolve.dfy ===
/**
 * `fetch_c7_order_by_number_and_email`: find the order by its number, fetch
 * its detail and its customer, and release it only when the given email is
 * on record. The three upstream calls are inputs: each reply is None when the
 * call raised, when its body was empty or null, or when reading it raised, all
 * of which the source turns into "no order".
 */
module C7Resolve {
  import opened Wrappers
  import opened Text
  import opened OrderId
  import opened C7

  /** A request to the commerce system: the order search, an order by internal id, a customer by id. */
  datatype C7Call = SearchOrders(query: string) | GetOrder(id: string) | GetCustomer(id: string)

  /** The replies the commerce system gives to the three requests, in order. */
  datatype C7Replies = C7Replies(
    search: Option<seq<SearchEntry>>,
    detail: Option<Order>,
    customer: Option<Customer>)

  /** The order released (None: not found or not owned) and the requests attempted, in order. */
  datatype Resolution = Resolution(order: Option<Order>, calls: seq<C7Call>)

  /**
   * `str(o.get("orderNumber")).isdigit() and int(o["orderNumber"]) == order_no`:
   * the entry is an object whose number renders as a digit string of value n.
   */
  function IsMatch(e: SearchEntry, n: int): (b: bool)
    ensures b ==> n >= 0 && e.OrderEntry? && e.orderNumber != "None"
  {
    && e.OrderEntry?
    && IsDigitString(e.orderNumber)
    && DecimalValue(e.orderNumber) == n
  }

  /** An entry whose number is the text of an integer m matches exactly the number m, and only when m >= 0. */
  lemma {:induction false} IsMatchOfRendered(m: int, id: Option<string>, n: int)
    ensures IsMatch(OrderEntry(IntToString(m), id), n) <==> m >= 0 && m == n
  {
    if m >= 0 {
      DecimalOfNatToString(m);
    }
  }

  /**
   * `next(o for o in orders if ...)`: the index of the first matching entry.
   * The scan is lazy: an entry that is not an object raises when it is reached
   * before a match, which the source turns into "no order".
   */
  function FirstMatch(es: seq<SearchEntry>, n: int): (r: Option<nat>)
    ensures r.Some? ==> r.value < |es| && IsMatch(es[r.value], n)
    ensures r.Some? ==> forall j :: 0 <= j < r.value ==> es[j].OrderEntry? && !IsMatch(es[j], n)
    ensures r.None? <==> exists k :: 0 <= k <= |es| && ScanStops(es, n, k)
  {
    if es == [] then
      assert ScanStops(es, n, 0);
      None
    else if es[0].NotAnObject? then
      assert ScanStops(es, n, 0);
      None
    else if IsMatch(es[0], n) then
      assert !ScanStops(es, n, 0);
      assert forall k :: 0 < k <= |es| ==> !ScanStops(es, n, k);
      Some(0)
    else
      var r := FirstMatch(es[1..], n);
      ScanStopsShift(es, n);
      if r.None? then None else Some(r.value + 1)
  }

  /** The scan of es for n reaches position k without a match and stops there, at the end or at a non-object. */
  predicate ScanStops(es: seq<SearchEntry>, n: int, k: nat)
    requires k <= |es|
  {
    && (k < |es| ==> es[k].NotAnObject?)
    && forall j :: 0 <= j < k ==> !IsMatch(es[j], n)
  }

  lemma {:induction false} ScanStopsShift(es: seq<SearchEntry>, n: int)
    requires es != [] && es[0].OrderEntry? && !IsMatch(es[0], n)
    ensures (exists k :: 0 <= k <= |es| && ScanStops(es, n, k)) <==>
      (exists k :: 0 <= k <= |es| - 1 && ScanStops(es[1..], n, k))
  {
    if exists k :: 0 <= k <= |es| && ScanStops(es, n, k) {
      var k :| 0 <= k <= |es| && ScanStops(es, n, k);
      assert k != 0;
      assert ScanStops(es[1..], n, k - 1);
    }
    if exists k :: 0 <= k <= |es| - 1 && ScanStops(es[1..], n, k) {
      var k :| 0 <= k <= |es| - 1 && ScanStops(es[1..], n, k);
      assert forall j :: 1 <= j < k + 1 ==> es[j] == es[1..][j - 1];
      assert ScanStops(es, n, k + 1);
    }
  }

  /** The email as the ownership check reads it: lower-cased, "" when the object has no `email` key. */
  function EmailText(e: EmailEntry): string
    requires !e.Unreadable?
  {
    if e.Email? then Lower(e.address) else ""
  }

  /**
   * `email.lower() in [e.get("email", "").lower() for e in emails]`: the list is
   * built in full first, so an unreadable entry anywhere fails the check.
   */
  function EmailOnRecord(email: string, c: Customer): (r: bool)
    ensures r <==>
      && (forall i :: 0 <= i < |c.emails| ==> !c.emails[i].Unreadable?)
      && exists i :: 0 <= i < |c.emails| && EmailText(c.emails[i]) == Lower(email)
  {
    if exists i :: 0 <= i < |c.emails| && c.emails[i].Unreadable? then false
    else
      var texts := seq(|c.emails|, i requires 0 <= i < |c.emails| => EmailText(c.emails[i]));
      assert forall i :: 0 <= i < |c.emails| ==> texts[i] == EmailText(c.emails[i]);
      Lower(email) in texts
  }

  /**
   * The whole resolution: parse, then search for the number and check ownership.
   * An id that does not parse sends nothing.
   */
  function Resolve(orderId: string, email: string, rep: C7Replies): (res: Resolution)
    ensures |res.calls| <= 3
    ensures ParseOrderNumber(orderId).None? <==> res.calls == []
    ensures res.calls != [] ==> res.calls[0] == SearchOrders(IntToString(ParseOrderNumber(orderId).value))
    ensures res.order.Some? ==> res.order == rep.detail && |res.calls| == 3
  {
    var parsed := ParseOrderNumber(orderId);
    if parsed.None? then Resolution(None, [])
    else ResolveNumber(parsed.value, email, rep)
  }

  /**
   * The steps after parsing: search, match, detail, customer id, customer,
   * email. Every failing step returns no order and sends no further request.
   */
  function ResolveNumber(n: int, email: string, rep: C7Replies): (res: Resolution)
    ensures 1 <= |res.calls| <= 3
    ensures res.calls[0] == SearchOrders(IntToString(n))
    ensures res.order.Some? ==> res.order == rep.detail && |res.calls| == 3
  {
    var searched := [SearchOrders(IntToString(n))];
    var entries := rep.search.GetOr([]);
    var m := FirstMatch(entries, n);
    if m.None? || entries[m.value].id.None? then Resolution(None, searched)
    else
      var fetched := searched + [GetOrder(entries[m.value].id.value)];
      if rep.detail.None? || !Truthy(rep.detail.value.customerId) then Resolution(None, fetched)
      else
        var all := fetched + [GetCustomer(rep.detail.value.customerId.value)];
        if rep.customer.None? || !EmailOnRecord(email, rep.customer.value) then Resolution(None, all)
        else Resolution(rep.detail, all)
  }

  /**
   * The conditions under which the order is released, each stated on its own:
   * the id parses to n; the search answered with an entry matching n that the
   * lazy scan reaches; that entry has an id; the detail came back with a truthy
   * customer id; the customer came back with the email on record.
   */
  predicate Owned(orderId: string, email: string, rep: C7Replies) {
    && ParseOrderNumber(orderId).Some?
    && rep.search.Some?
    && ReachedMatch(rep.search.value, ParseOrderNumber(orderId).value)
    && rep.detail.Some?
    && Truthy(rep.detail.value.customerId)
    && rep.customer.Some?
    && EmailOnRecord(email, rep.customer.value)
  }

  /** Some entry with an id matches n, and every entry before it is an object that does not match. */
  predicate ReachedMatch(es: seq<SearchEntry>, n: int) {
    exists i :: 0 <= i < |es| && IsMatch(es[i], n) && es[i].id.Some? && ScannedPast(es, n, i)
  }

  /** Every entry before position i is an object that does not match n. */
  predicate ScannedPast(es: seq<SearchEntry>, n: int, i: nat)
    requires i <= |es|
  {
    forall j :: 0 <= j < i ==> es[j].OrderEntry? && !IsMatch(es[j], n)
  }

  /** The entry the lazy scan reaches first is the unique one described by ReachedMatch. */
  lemma {:induction false} FirstMatchReached(es: seq<SearchEntry>, n: int)
    ensures (FirstMatch(es, n).Some? && es[FirstMatch(es, n).value].id.Some?) <==> ReachedMatch(es, n)
  {
    var m := FirstMatch(es, n);
    if m.Some? && es[m.value].id.Some? {
      assert ScannedPast(es, n, m.value);
    }
    if ReachedMatch(es, n) {
      var i :| 0 <= i < |es| && IsMatch(es[i], n) && es[i].id.Some? && ScannedPast(es, n, i);
    }
  }

  /** The order is released exactly when every step succeeds; any other combination gives none. */
  lemma {:induction false} ResolveReleasesIffOwned(orderId: string, email: string, rep: C7Replies)
    ensures Resolve(orderId, email, rep).order.Some? <==> Owned(orderId, email, rep)
  {
    if ParseOrderNumber(orderId).Some? {
      ResolveNumberReleasesIff(ParseOrderNumber(orderId).value, email, rep);
    }
  }

  lemma {:induction false} ResolveNumberReleasesIff(n: int, email: string, rep: C7Replies)
    ensures ResolveNumber(n, email, rep).order.Some? <==>
      && rep.search.Some?
      && ReachedMatch(rep.search.value, n)
      && rep.detail.Some?
      && Truthy(rep.detail.value.customerId)
      && rep.customer.Some?
      && EmailOnRecord(email, rep.customer.value)
  {
    var es := rep.search.GetOr([]);
    FirstMatchReached(es, n);
    if rep.search.None? {
      assert FirstMatch(es, n).None?;
    }
  }

  /** With an id that does not parse, nothing is sent and nothing is found, whatever the replies. */
  lemma {:induction false} UnparsableSendsNothing(orderId: string, email: string, rep: C7Replies)
    requires ParseOrderNumber(orderId).None?
    ensures Resolve(orderId, email, rep) == Resolution(None, [])
  {
  }

  /** A failed search ends the resolution: only the search was sent, and the later replies are never read. */
  lemma {:induction false} FailedSearchStops(orderId: string, email: string, rep: C7Replies, other: C7Replies)
    requires ParseOrderNumber(orderId).Some?
    requires rep.search.None? && other.search.None?
    ensures Resolve(orderId, email, rep).order.None?
    ensures Resolve(orderId, email, rep) == Resolve(orderId, email, other)
    ensures |Resolve(orderId, email, rep).calls| == 1
  {
  }

  /** A failed detail fetch or a falsy customer id ends the resolution; the customer reply is never read. */
  lemma {:induction false} FailedDetailStops(orderId: string, email: string, rep: C7Replies, c: Option<Customer>)
    requires rep.detail.None? || !Truthy(rep.detail.value.customerId)
    ensures Resolve(orderId, email, rep).order.None?
    ensures Resolve(orderId, email, rep) == Resolve(orderId, email, rep.(customer := c))
    ensures |Resolve(orderId, email, rep).calls| <= 2
  {
    if ParseOrderNumber(orderId).Some? {
      DetailStops(ParseOrderNumber(orderId).value, email, rep, c);
    }
  }

  lemma DetailStops(n: int, email: string, rep: C7Replies, c: Option<Customer>)
    requires rep.detail.None? || !Truthy(rep.detail.value.customerId)
    ensures ResolveNumber(n, email, rep).order.None?
    ensures ResolveNumber(n, email, rep) == ResolveNumber(n, email, rep.(customer := c))
    ensures |ResolveNumber(n, email, rep).calls| <= 2
  {
  }

  /** The ownership check ignores letter case on both sides. */
  lemma {:induction false} EmailCaseInsensitive(a: string, b: string, rep: C7Replies, orderId: string)
    requires Lower(a) == Lower(b)
    ensures Resolve(orderId, a, rep) == Resolve(orderId, b, rep)
  {
    if ParseOrderNumber(orderId).Some? {
      if rep.customer.Some? {
        EmailOnRecordCaseInsensitive(a, b, rep.customer.value);
      }
      ResolveNumberEmailOnlyViaRecord(ParseOrderNumber(orderId).value, a, b, rep);
    }
  }

  lemma {:induction false} EmailOnRecordCaseInsensitive(a: string, b: string, c: Customer)
    requires Lower(a) == Lower(b)
    ensures EmailOnRecord(a, c) == EmailOnRecord(b, c)
  {
  }

  /** The email enters the resolution only through the ownership check. */
  lemma {:induction false} ResolveNumberEmailOnlyViaRecord(n: int, a: string, b: string, rep: C7Replies)
    requires rep.customer.Some? ==> EmailOnRecord(a, rep.customer.value) == EmailOnRecord(b, rep.customer.value)
    ensures ResolveNumber(n, a, rep) == ResolveNumber(n, b, rep)
  {
  }

  /** A customer without the email on record never releases the order, whatever the other replies. */
  lemma {:induction false} WrongEmailFails(orderId: string, email: string, rep: C7Replies)
    requires rep.customer.Some?
    requires forall i :: 0 <= i < |rep.customer.value.emails| ==>
      rep.customer.value.emails[i].Email? && Lower(rep.customer.value.emails[i].address) != Lower(email)
    ensures Resolve(orderId, email, rep).order.None?
  {
    var c := rep.customer.value;
    assert !EmailOnRecord(email, c) by {
      assert forall i :: 0 <= i < |c.emails| ==> EmailText(c.emails[i]) != Lower(email);
    }
  }

  /**
   * The owner finds the order: a search answering with the order under its
   * number, a detail with a customer id, and a customer holding the email
   * release the detail after exactly the three requests.
   */
  lemma {:induction false} OwnerFindsOrder(
    orderId: string, n: nat, email: string, orderKey: string, o: Order, c: Customer, rep: C7Replies)
    requires ParseOrderNumber(orderId) == Some(n)
    requires rep.search == Some([OrderEntry(IntToString(n), Some(orderKey))])
    requires rep.detail == Some(o) && Truthy(o.customerId)
    requires rep.customer == Some(c) && EmailOnRecord(email, c)
    ensures Resolve(orderId, email, rep) ==
      Resolution(Some(o), [SearchOrders(IntToString(n)), GetOrder(orderKey), GetCustomer(o.customerId.value)])
  {
    var e := OrderEntry(IntToString(n), Some(orderKey));
    IsMatchOfRendered(n, Some(orderKey), n);
    LoneMatchFirst(e, n);
    OwnerReleased(n, email, orderKey, o, c, rep);
  }

  /** A search answering with one matching entry is matched at that entry. */
  lemma LoneMatchFirst(e: SearchEntry, n: int)
    requires IsMatch(e, n)
    ensures FirstMatch([e], n) == Some(0)
  {
  }

  lemma OwnerReleased(n: int, email: string, orderKey: string, o: Order, c: Customer, rep: C7Replies)
    requires rep.search.Some? && FirstMatch(rep.search.value, n) == Some(0)
    requires rep.search.value[0].id == Some(orderKey)
    requires rep.detail == Some(o) && Truthy(o.customerId)
    requires rep.customer == Some(c) && EmailOnRecord(email, c)
    ensures ResolveNumber(n, email, rep) ==
      Resolution(Some(o), [SearchOrders(IntToString(n)), GetOrder(orderKey), GetCustomer(o.customerId.value)])
  {
  }
}


=== FILE: c7_status.dfy ===
/** `_status_line_from_c7`: the fixed decision table from the order's fulfillment and shipping status to a sentence. */
module C7Status {
  import opened Wrappers
  import opened Text
  import opened C7

  const NotShipped := "Not shipped yet; typical dispatch within two business days."
  const PartiallyFulfilled := "Partially fulfilled; remaining items will ship soon."
  const Delivered := "Order was delivered."
  const OnItsWay := "Order is on its way; follow via the provided tracking link."
  const Fulfilled := "Order fulfilled."
  const NoFulfillmentRequired := "No fulfillment required."
  const StatusAvailable := "Order status available; see tracking for latest updates."

  /** The seven sentences the table can produce. */
  const Sentences: set<string> :=
    {NotShipped, PartiallyFulfilled, Delivered, OnItsWay, Fulfilled, NoFulfillmentRequired, StatusAvailable}

  /** The fulfillment statuses the table recognises, lower-cased. */
  const KnownFulfillment: set<string> :=
    {"not fulfilled", "partially fulfilled", "fulfilled", "no fulfillment required"}

  /** A status field lower-cased, an absent or empty one reading as "". */
  function Normal(v: Option<string>): string {
    Lower(Or(v, ""))
  }

  function StatusLineFromC7(order: Order): (r: string)
    ensures r in Sentences
    ensures var fs, ss := Normal(order.fulfillmentStatus), Normal(order.shippingStatus);
      && (r == NotShipped <==> fs == "not fulfilled")
      && (r == PartiallyFulfilled <==> fs == "partially fulfilled")
      && (r == Delivered <==> fs == "fulfilled" && ss == "delivered")
      && (r == OnItsWay <==> fs == "fulfilled" && (ss == "in transit" || ss == "pending"))
      && (r == Fulfilled <==> fs == "fulfilled" && ss !in {"delivered", "in transit", "pending"})
      && (r == NoFulfillmentRequired <==> fs == "no fulfillment required")
      && (r == StatusAvailable <==> fs !in KnownFulfillment)
  {
    var fs := Normal(order.fulfillmentStatus);
    var ss := Normal(order.shippingStatus);
    if fs == "not fulfilled" then NotShipped
    else if fs == "partially fulfilled" then PartiallyFulfilled
    else if fs == "fulfilled" then
      if ss == "delivered" then Delivered
      else if ss == "in transit" || ss == "pending" then OnItsWay
      else Fulfilled
    else if fs == "no fulfillment required" then NoFulfillmentRequired
    else StatusAvailable
  }

  /** The table ignores letter case: orders whose statuses agree once lower-cased get the same sentence. */
  lemma StatusLineCaseInsensitive(a: Order, b: Order)
    requires Lower(Or(a.fulfillmentStatus, "")) == Lower(Or(b.fulfillmentStatus, ""))
    requires Lower(Or(a.shippingStatus, "")) == Lower(Or(b.shippingStatus, ""))
    ensures StatusLineFromC7(a) == StatusLineFromC7(b)
  {
  }

  /** The shipping status only matters for fulfilled orders. */
  lemma ShippingStatusOnlyForFulfilled(a: Order, b: Order)
    requires Normal(a.fulfillmentStatus) == Normal(b.fulfillmentStatus) != "fulfilled"
    ensures StatusLineFromC7(a) == StatusLineFromC7(b)
  {
  }
}

=== FILE: c7_tracking.dfy ===
/**
 * `_extract_tracking_from_c7`: the tracking numbers and the carrier of an
 * order's shipped fulfillments. The reference definitions are recursive over
 * a growing prefix; the method is the source's two nested loops.
 */
module C7Tracking {
  import opened Wrappers
  import opened Text
  import opened C7

  /** A fulfillment counts as shipped when its type, lower-cased, is "shipped"; a missing type reads as "". */
  function IsShipped(f: Fulfillment): (b: bool)
    ensures b <==> f.kind.Some? && Lower(f.kind.value) == "shipped"
    ensures b ==> |f.kind.value| == 7
  {
    Lower(Or(f.kind, "")) == "shipped"
  }

  /** The truthy entries of a tracking-number list, in list order. */
  function TruthyNumbers(tns: seq<Option<string>>): seq<string> {
    if tns == [] then []
    else
      var n := |tns| - 1;
      TruthyNumbers(tns[..n]) + (if Truthy(tns[n]) then [tns[n].value] else [])
  }

  /** The numbers the loop collects: those of every shipped fulfillment, in order. */
  function ShippedNumbers(fs: seq<Fulfillment>): seq<string> {
    if fs == [] then []
    else
      var n := |fs| - 1;
      ShippedNumbers(fs[..n]) + (if IsShipped(fs[n]) then TruthyNumbers(fs[n].trackingNumbers) else [])
  }

  /** The carrier the loop settles on: the first truthy carrier of a shipped fulfillment. */
  function FirstCarrier(fs: seq<Fulfillment>): Option<string> {
    if fs == [] then None
    else
      var n := |fs| - 1;
      var c := FirstCarrier(fs[..n]);
      if Truthy(c) then c
      else if IsShipped(fs[n]) && Truthy(fs[n].carrier) then fs[n].carrier
      else None
  }

  /** The two nested loops of the source, returning the numbers and the carrier. */
  method ExtractTracking(fs: seq<Fulfillment>) returns (nums: seq<string>, carrier: Option<string>)
    ensures nums == ShippedNumbers(fs)
    ensures carrier == FirstCarrier(fs)
  {
    nums := [];
    carrier := None;
    var i := 0;
    while i < |fs|
      invariant 0 <= i <= |fs|
      invariant nums == ShippedNumbers(fs[..i])
      invariant carrier == FirstCarrier(fs[..i])
    {
      var f := fs[i];
      assert fs[..i + 1][..i] == fs[..i] && fs[..i + 1][i] == f;
      if IsShipped(f) {
        var tns := f.trackingNumbers;
        var j := 0;
        while j < |tns|
          invariant 0 <= j <= |tns|
          invariant nums == ShippedNumbers(fs[..i]) + TruthyNumbers(tns[..j])
        {
          assert tns[..j + 1][..j] == tns[..j];
          if tns[j].Some? && tns[j].value != "" {
            nums := nums + [tns[j].value];
          }
          j := j + 1;
        }
        assert tns[..j] == tns;
        if !Truthy(carrier) {
          carrier := if f.carrier.Some? && f.carrier.value != "" then f.carrier else None;
        }
      }
      i := i + 1;
    }
    assert fs[..i] == fs;
  }

  /** Every collected number is non-empty and comes from the list it was read from. */
  lemma {:induction false} TruthyNumbersSound(tns: seq<Option<string>>)
    ensures forall k :: 0 <= k < |TruthyNumbers(tns)| ==>
      TruthyNumbers(tns)[k] != "" && Some(TruthyNumbers(tns)[k]) in tns
  {
    if tns != [] {
      var n := |tns| - 1;
      TruthyNumbersSound(tns[..n]);
      forall k | 0 <= k < |TruthyNumbers(tns)|
        ensures TruthyNumbers(tns)[k] != "" && Some(TruthyNumbers(tns)[k]) in tns
      {
        var pre := TruthyNumbers(tns[..n]);
        if k < |pre| {
          assert TruthyNumbers(tns)[k] == pre[k];
          var j :| 0 <= j < n && tns[..n][j] == Some(pre[k]);
          assert tns[j] == Some(pre[k]);
        } else {
          assert tns[n] == Some(TruthyNumbers(tns)[k]);
        }
      }
    }
  }

  /** Every truthy number of the list is collected. */
  lemma {:induction false} TruthyNumbersComplete(tns: seq<Option<string>>)
    ensures forall j :: 0 <= j < |tns| && Truthy(tns[j]) ==> tns[j].value in TruthyNumbers(tns)
  {
    if tns != [] {
      var n := |tns| - 1;
      TruthyNumbersComplete(tns[..n]);
      forall j | 0 <= j < |tns| && Truthy(tns[j])
        ensures tns[j].value in TruthyNumbers(tns)
      {
        if j < n {
          assert tns[..n][j] == tns[j];
        }
      }
    }
  }

  /** Concatenating fulfillment lists concatenates their numbers: the order of the fulfillments is kept. */
  lemma {:induction false} ShippedNumbersAppend(a: seq<Fulfillment>, b: seq<Fulfillment>)
    ensures ShippedNumbers(a + b) == ShippedNumbers(a) + ShippedNumbers(b)
    decreases |b|
  {
    if b != [] {
      var n := |b| - 1;
      assert (a + b)[..|a| + n] == a + b[..n];
      ShippedNumbersAppend(a, b[..n]);
    } else {
      assert a + b == a;
    }
  }

  /** Every number of the result is non-empty and appears in some shipped fulfillment's list. */
  lemma {:induction false} ShippedNumbersSound(fs: seq<Fulfillment>)
    ensures forall k :: 0 <= k < |ShippedNumbers(fs)| ==>
      ShippedNumbers(fs)[k] != "" &&
      exists i :: 0 <= i < |fs| && IsShipped(fs[i]) && Some(ShippedNumbers(fs)[k]) in fs[i].trackingNumbers
  {
    if fs != [] {
      var n := |fs| - 1;
      ShippedNumbersSound(fs[..n]);
      var pre := ShippedNumbers(fs[..n]);
      forall k | 0 <= k < |ShippedNumbers(fs)|
        ensures ShippedNumbers(fs)[k] != "" &&
          exists i :: 0 <= i < |fs| && IsShipped(fs[i]) && Some(ShippedNumbers(fs)[k]) in fs[i].trackingNumbers
      {
        if k < |pre| {
          assert ShippedNumbers(fs)[k] == pre[k];
          var i :| 0 <= i < n && IsShipped(fs[..n][i]) && Some(pre[k]) in fs[..n][i].trackingNumbers;
          assert fs[i] == fs[..n][i];
        } else {
          TruthyNumbersSound(fs[n].trackingNumbers);
          assert ShippedNumbers(fs)[k] == TruthyNumbers(fs[n].trackingNumbers)[k - |pre|];
        }
      }
    }
  }

  /** Every truthy number of every shipped fulfillment is in the result. */
  lemma {:induction false} ShippedNumbersComplete(fs: seq<Fulfillment>, i: nat, j: nat)
    requires i < |fs| && IsShipped(fs[i])
    requires j < |fs[i].trackingNumbers| && Truthy(fs[i].trackingNumbers[j])
    ensures fs[i].trackingNumbers[j].value in ShippedNumbers(fs)
  {
    var n := |fs| - 1;
    if i < n {
      assert fs[..n][i] == fs[i];
      ShippedNumbersComplete(fs[..n], i, j);
    } else {
      TruthyNumbersComplete(fs[n].trackingNumbers);
    }
  }

  /** Fulfillments that are not shipped contribute nothing. */
  lemma {:induction false} ShippedNumbersIgnoresUnshipped(fs: seq<Fulfillment>)
    requires forall i :: 0 <= i < |fs| ==> !IsShipped(fs[i])
    ensures ShippedNumbers(fs) == []
    ensures FirstCarrier(fs) == None
  {
    if fs != [] {
      var n := |fs| - 1;
      assert forall i :: 0 <= i < n ==> fs[..n][i] == fs[i];
      ShippedNumbersIgnoresUnshipped(fs[..n]);
    }
  }

  /**
   * The carrier is None exactly when no shipped fulfillment has a truthy carrier,
   * and otherwise it is the carrier of the first one that has.
   */
  lemma {:induction false} FirstCarrierSpec(fs: seq<Fulfillment>)
    ensures FirstCarrier(fs).None? <==>
      forall i :: 0 <= i < |fs| && IsShipped(fs[i]) ==> !Truthy(fs[i].carrier)
    ensures FirstCarrier(fs).Some? ==>
      FirstCarrier(fs).value != "" &&
      exists i :: 0 <= i < |fs| && IsShipped(fs[i]) && fs[i].carrier == FirstCarrier(fs) &&
        forall j :: 0 <= j < i && IsShipped(fs[j]) ==> !Truthy(fs[j].carrier)
  {
    if fs != [] {
      var n := |fs| - 1;
      FirstCarrierSpec(fs[..n]);
      assert forall i :: 0 <= i < n ==> fs[..n][i] == fs[i];
      var c := FirstCarrier(fs[..n]);
      if Truthy(c) {
        var i :| 0 <= i < n && IsShipped(fs[..n][i]) && fs[..n][i].carrier == c &&
          forall j :: 0 <= j < i && IsShipped(fs[..n][j]) ==> !Truthy(fs[..n][j].carrier);
        assert fs[i] == fs[..n][i];
        assert FirstCarrier(fs) == c;
      } else {
        assert c == None;
        assert forall i :: 0 <= i < n && IsShipped(fs[i]) ==> !Truthy(fs[i].carrier);
        if IsShipped(fs[n]) && Truthy(fs[n].carrier) {
          assert FirstCarrier(fs) == fs[n].carrier;
        } else {
          assert FirstCarrier(fs) == None;
        }
      }
    }
  }
}

=== FILE: examples_40500.dfy ===
/** A worked lookup: order 40500, two wines, fulfilled and delivered, found for its owner. */
module Example40500 {
  import opened Wrappers
  import opened Text
  import opened OrderId
  import opened C7
  import C7Status
  import opened C7Items
  import opened C7Resolve
  import opened WsTracking
  import opened Lookup

  const WineA := LineItem(Some("Wine A"), None, None, Some(2))
  const WineB := LineItem(Some("Wine B"), None, None, None)
  const TheOrder := Order(Some("Fulfilled"), Some("Delivered"), Some("c1"), [WineA, WineB], [])
  const Owner := Customer([Email("Ann@Example.com")])
  const Replies := C7Replies(Some([OrderEntry("40500", Some("o1"))]), Some(TheOrder), Some(Owner))

  lemma {:induction false} NumberText()
    ensures IntToString(40500) == "40500"
  {
    assert NatToString(4) == "4";
    assert NatToString(40) == "40";
    assert NatToString(405) == "405";
    assert NatToString(4050) == "4050";
  }

  lemma {:induction false} ParsesTo40500()
    ensures MatchesDefaultPattern("40500")
    ensures ParseOrderNumber("40500") == Some(40500)
  {
    NumberText();
    assert "" + "40500" + "" == "40500";
    GateAcceptsPaddedDigits("", "40500", "");
    ParseOrderNumberRoundTrip(40500);
  }

  /** A customer whose one email equals the given one up to letter case owns the order. */
  lemma {:induction false} SingleEmailOnRecord(email: string, address: string)
    requires Lower(address) == Lower(email)
    ensures EmailOnRecord(email, Customer([Email(address)]))
  {
    assert EmailText(Customer([Email(address)]).emails[0]) == Lower(email);
  }

  lemma {:induction false} OwnerEmail()
    ensures EmailOnRecord("ann@example.com", Owner)
  {
    var a := "Ann@Example.com";
    var e := "ann@example.com";
    assert Lower(a) == e;
    assert Lower(e) == e;
    SingleEmailOnRecord(e, a);
  }

  lemma {:induction false} ResolvesForOwner()
    ensures Resolve("40500", "ann@example.com", Replies) ==
      Resolution(Some(TheOrder), [SearchOrders("40500"), GetOrder("o1"), GetCustomer("c1")])
  {
    ParsesTo40500();
    NumberText();
    OwnerEmail();
    OwnerFindsOrder("40500", 40500, "ann@example.com", "o1", TheOrder, Owner, Replies);
  }

  lemma {:induction false} DeliveredLine()
    ensures C7Status.StatusLineFromC7(TheOrder) == C7Status.Delivered
  {
    assert Lower("Fulfilled") == "fulfilled";
    assert Lower("Delivered") == "delivered";
  }

  /** Two lines under different titles give two entries, in line order. */
  lemma {:induction false} TwoTitles(a: LineItem, b: LineItem)
    requires TitleOf(a) != TitleOf(b)
    ensures ExtractItems([a, b]) == [(TitleOf(a), QtyOf(a)), (TitleOf(b), QtyOf(b))]
  {
    var ea, eb := (TitleOf(a), QtyOf(a)), (TitleOf(b), QtyOf(b));
    assert Aggregate([a]) == [ea] by {
      assert [a][..0] == [];
    }
    assert Aggregate([a, b]) == Bump([ea], eb.0, eb.1) by {
      assert [a, b][..1] == [a];
    }
    assert [ea][1..] == [];
    assert Bump([ea], eb.0, eb.1) == [ea] + Bump([], eb.0, eb.1);
    assert Bump([], eb.0, eb.1) == [eb];
    assert [ea] + [eb] == [ea, eb];
    assert ExtractItems([a, b]) == Aggregate([a, b]);
  }

  /** Two entries render as the first, ", ", and the second. */
  lemma {:induction false} FormatTwo(x: (string, int), y: (string, int))
    ensures FormatItems([x, y]) == Entry(x) + ", " + Entry(y)
  {
    FormatItemsCons(y, []);
    assert [y] + [] == [y];
    assert [x] + [y] == [x, y];
    FormatItemsCons(x, [y]);
  }

  lemma {:induction false} ItemsOfTheOrder()
    ensures FormatItems(ExtractItems(TheOrder.items)) == "2 x Wine A" + ", " + "1 x Wine B"
  {
    var a, b := ("Wine A", 2), ("Wine B", 1);
    assert TitleOf(WineA) == a.0 && QtyOf(WineA) == a.1;
    assert TitleOf(WineB) == b.0 && QtyOf(WineB) == b.1;
    TwoTitles(WineA, WineB);
    FormatTwo(a, b);
    EntryA();
    EntryB();
  }

  lemma {:induction false} EntryA()
    ensures Entry(("Wine A", 2)) == "2 x Wine A"
  {
    assert IntToString(2) == "2";
  }

  lemma {:induction false} EntryB()
    ensures Entry(("Wine B", 1)) == "1 x Wine B"
  {
    assert IntToString(1) == "1";
  }

  /** The found body of the example order, with the delivered sentence. */
  lemma {:induction false} FoundText()
    ensures FoundContext("40500", TheOrder, C7Status.Delivered) ==
      "Order " + "40500" + " found. Items: " + ("2 x Wine A" + ", " + "1 x Wine B") + ". " + "Order was delivered."
  {
    ItemsOfTheOrder();
  }

  /** A resolved order with the tracking service off is found with the commerce system's line. */
  lemma {:induction false} ResolvedIsFound(cfg: Config, orderId: string, email: string, up: Upstreams, o: Order, calls: seq<C7Call>)
    requires !cfg.wsEnabled && MatchesDefaultPattern(orderId)
    requires Resolve(orderId, email, up.c7) == Resolution(Some(o), calls)
    ensures OrderLookup(cfg, orderId, email, up) ==
      Outcome(Found(FoundContext(orderId, o, C7Status.StatusLineFromC7(o)), None), calls, None)
  {
    DisabledWsKeepsC7Line(cfg, orderId, email, up);
  }

  /** With the tracking service off, the owner gets the exact found body and the three requests are sent. */
  lemma {:induction false} FoundForOwner(cfg: Config)
    requires !cfg.wsEnabled
    ensures OrderLookup(cfg, "40500", "ann@example.com", Upstreams(Replies, TransportError)) ==
      Outcome(Found("Order " + "40500" + " found. Items: " + ("2 x Wine A" + ", " + "1 x Wine B") + ". " + "Order was delivered.", None),
        [SearchOrders("40500"), GetOrder("o1"), GetCustomer("c1")], None)
  {
    ParsesTo40500();
    ResolvesForOwner();
    DeliveredLine();
    FoundText();
    ResolvedIsFound(cfg, "40500", "ann@example.com", Upstreams(Replies, TransportError), TheOrder,
      [SearchOrders("40500"), GetOrder("o1"), GetCustomer("c1")]);
  }
}

=== FILE: lookup.dfy ===
/**
 * `order_lookup` and the guards in front of it: the order-id gate, the
 * resolution against the commerce system, the optional tracking-service
 * status line, and the exact not-found and found bodies.
 */
module Lookup {
  import opened Wrappers
  import opened Text
  import opened OrderId
  import opened C7
  import C7Status
  import opened C7Items
  import opened C7Tracking
  import opened C7Resolve
  import opened WsTracking
  import opened Access

  /** The service's answer: 403, 401, 200 with a context and an optional link, or 404 with a context. */
  datatype Response =
    | Forbidden
    | Unauthorized
    | Found(context: string, trackingUrl: Option<string>)
    | NotFound(context: string)

  /** The response, the commerce-system requests attempted in order, and the tracking-service request if one was attempted. */
  datatype Outcome = Outcome(response: Response, c7Calls: seq<C7Call>, wsCall: Option<seq<string>>)

  /** The configuration the handlers read. */
  datatype Config = Config(
    apiKey: string,
    enforceAllowlist: bool,
    allowlist: set<string>,
    wsEnabled: bool,
    wsApiKey: string)

  /** What the handlers read from the request. */
  datatype Request = Request(
    orderId: string,
    email: string,
    apiKeyHeader: Option<string>,
    forwardedFor: string,
    clientHost: Option<string>)

  /** The replies of both upstream services. */
  datatype Upstreams = Upstreams(c7: C7Replies, ws: WsReply)

  const NotFoundTail :=
    " not found with the provided details. Please double-check the order number or contact support for assistance."

  /** `_context_not_found`: the one not-found body, naming the id exactly as the caller sent it. */
  function NotFoundContext(orderId: string): (r: string)
    ensures |r| == 6 + |orderId| + |NotFoundTail|
    ensures r[..6] == "Order " && r[6..6 + |orderId|] == orderId && r[6 + |orderId|..] == NotFoundTail
  {
    "Order " + orderId + NotFoundTail
  }

  /** Different ids give different not-found bodies: the body reveals the id and nothing else. */
  lemma {:induction false} NotFoundContextInjective(a: string, b: string)
    requires NotFoundContext(a) == NotFoundContext(b)
    ensures a == b
  {
    var r := NotFoundContext(a);
    assert |a| == |b|;
    assert a == r[6..6 + |a|] == b;
  }

  /** The found body: `Order {id} found. Items: {items}. {status line}`. */
  function FoundContext(orderId: string, o: Order, line: string): (r: string)
    ensures var head := "Order " + orderId + " found. Items: ";
      var items := FormatItems(ExtractItems(o.items));
      var h, m := |head|, |head| + |items|;
      && |r| == m + 2 + |line|
      && r[..h] == head
      && r[h..m] == items
      && r[m..m + 2] == ". "
      && r[m + 2..] == line
  {
    var head := "Order " + orderId + " found. Items: ";
    var items := FormatItems(ExtractItems(o.items));
    var r := head + items + ". " + line;
    Concat4(head, items, ". ", line, r);
    r
  }

  /** Where each of four joined pieces sits in the joined text. */
  lemma Concat4(a: string, b: string, c: string, d: string, r: string)
    requires r == a + b + c + d
    ensures var h, m := |a|, |a| + |b|;
      && |r| == m + |c| + |d|
      && r[..h] == a
      && r[h..m] == b
      && r[m..m + |c|] == c
      && r[m + |c|..] == d
  {
    var h, m := |a|, |a| + |b|;
    assert r[..h] == (a + b)[..h];
    assert r[h..m] == (a + b)[h..m];
    assert r[..m + |c|] == a + b + c;
  }

  /** `tracking_numbers[:3]`. */
  function FirstThree(nums: seq<string>): (r: seq<string>)
    ensures |r| <= 3 && |r| <= |nums| && r == nums[..|r|]
    ensures |nums| >= 3 ==> |r| == 3
    ensures |nums| < 3 ==> r == nums
  {
    if |nums| < 3 then nums else nums[..3]
  }

  /** The tracking service's data is used: enabled, the order has numbers, and the service returned truthy data. */
  predicate WsLineUsed(cfg: Config, o: Order, ws: WsReply) {
    var nums := ShippedNumbers(o.fulfillments);
    var fetched := FetchWsTracking(cfg.wsEnabled, cfg.wsApiKey, FirstThree(nums), ws);
    cfg.wsEnabled && nums != [] && fetched.0.Data? && PayloadTruthy(fetched.0.payload)
  }

  /**
   * The status line, the link and the tracking request of a found order: the
   * commerce system's line and no link, replaced by the tracking service's pair
   * when its data is used. The service is asked only when it is enabled, has a
   * key, and the order has tracking numbers, and then for the first three.
   */
  function StatusAndLink(cfg: Config, o: Order, ws: WsReply): (r: (string, Option<string>, Option<seq<string>>))
    ensures var nums := ShippedNumbers(o.fulfillments);
      && (r.2.Some? <==> cfg.wsEnabled && cfg.wsApiKey != "" && nums != [])
      && (r.2.Some? ==> r.2.value == FirstThree(nums) && 1 <= |r.2.value| <= 3)
    ensures !WsLineUsed(cfg, o, ws) ==> r.0 == C7Status.StatusLineFromC7(o) && r.1 == None
    ensures WsLineUsed(cfg, o, ws) ==>
      && r.2.Some?
      && (r.0, r.1) == StatusLineFromWs(FetchWsTracking(cfg.wsEnabled, cfg.wsApiKey, r.2.value, ws).0.payload)
  {
    var nums := ShippedNumbers(o.fulfillments);
    var line := C7Status.StatusLineFromC7(o);
    if cfg.wsEnabled && nums != [] then
      var sent := FirstThree(nums);
      var fetched := FetchWsTracking(cfg.wsEnabled, cfg.wsApiKey, sent, ws);
      var wsCall := if fetched.1 then Some(sent) else None;
      if fetched.0.Data? && PayloadTruthy(fetched.0.payload) then
        var (wsLine, url) := StatusLineFromWs(fetched.0.payload);
        (wsLine, url, wsCall)
      else (line, None, wsCall)
    else (line, None, None)
  }

  /**
   * `order_lookup` after authentication: the gate on the stripped id, the
   * resolution, then the found body with the status line and link.
   */
  function OrderLookup(cfg: Config, orderId: string, email: string, up: Upstreams): (out: Outcome)
    ensures !MatchesDefaultPattern(orderId) ==> out == Outcome(NotFound(NotFoundContext(orderId)), [], None)
    ensures out.response.Found? || out.response == NotFound(NotFoundContext(orderId))
    ensures out.response.Found? <==> MatchesDefaultPattern(orderId) && Resolve(orderId, email, up.c7).order.Some?
    ensures MatchesDefaultPattern(orderId) ==> out.c7Calls == Resolve(orderId, email, up.c7).calls
    ensures out.wsCall.Some? ==> out.response.Found?
    ensures out.response.Found? ==>
      var o := Resolve(orderId, email, up.c7).order.value;
      var s := StatusAndLink(cfg, o, up.ws);
      out.response == Found(FoundContext(orderId, o, s.0), s.1) && out.wsCall == s.2
  {
    if !MatchesDefaultPattern(orderId) then Outcome(NotFound(NotFoundContext(orderId)), [], None)
    else
      var res := Resolve(orderId, email, up.c7);
      if res.order.None? then Outcome(NotFound(NotFoundContext(orderId)), res.calls, None)
      else
        var o := res.order.value;
        var s := StatusAndLink(cfg, o, up.ws);
        Outcome(Found(FoundContext(orderId, o, s.0), s.1), res.calls, s.2)
  }

  /** The endpoint: the allowlist middleware (403), then the API key (401), then the lookup. */
  function Endpoint(cfg: Config, req: Request, up: Upstreams): (out: Outcome)
    ensures out.response.Forbidden? <==>
      !IpAllowed(cfg.enforceAllowlist, cfg.allowlist, req.forwardedFor, req.clientHost)
    ensures out.response.Unauthorized? <==>
      IpAllowed(cfg.enforceAllowlist, cfg.allowlist, req.forwardedFor, req.clientHost) &&
      !ApiKeyAccepted(req.apiKeyHeader, cfg.apiKey)
    ensures out.response.Forbidden? || out.response.Unauthorized? ==> out.c7Calls == [] && out.wsCall == None
    ensures !out.response.Forbidden? && !out.response.Unauthorized? ==>
      out == OrderLookup(cfg, req.orderId, req.email, up)
  {
    if !IpAllowed(cfg.enforceAllowlist, cfg.allowlist, req.forwardedFor, req.clientHost) then
      Outcome(Forbidden, [], None)
    else if !ApiKeyAccepted(req.apiKeyHeader, cfg.apiKey) then
      Outcome(Unauthorized, [], None)
    else
      OrderLookup(cfg, req.orderId, req.email, up)
  }

  /**
   * Anti-enumeration: any two not-found answers for the same id are identical,
   * whatever the email, the configuration and the upstream replies, so a caller
   * cannot tell an invalid id from an unknown order or a wrong email.
   */
  lemma {:induction false} NotFoundIndistinguishable(
    cfg1: Config, cfg2: Config, orderId: string, e1: string, e2: string, up1: Upstreams, up2: Upstreams)
    requires OrderLookup(cfg1, orderId, e1, up1).response.NotFound?
    requires OrderLookup(cfg2, orderId, e2, up2).response.NotFound?
    ensures OrderLookup(cfg1, orderId, e1, up1).response == OrderLookup(cfg2, orderId, e2, up2).response
  {
  }

  /** The tracking service never decides whether an order is found: its reply and its settings only shape the line. */
  lemma {:induction false} WsNeverChangesFound(cfg: Config, orderId: string, email: string, up: Upstreams, ws: WsReply, wsEnabled: bool, wsKey: string)
    ensures OrderLookup(cfg, orderId, email, up).response.Found? ==
      OrderLookup(cfg.(wsEnabled := wsEnabled, wsApiKey := wsKey), orderId, email, up.(ws := ws)).response.Found?
  {
  }

  /** With the tracking service disabled, a found order carries the commerce system's status line and no link. */
  lemma {:induction false} DisabledWsKeepsC7Line(cfg: Config, orderId: string, email: string, up: Upstreams)
    requires !cfg.wsEnabled
    requires OrderLookup(cfg, orderId, email, up).response.Found?
    ensures var o := Resolve(orderId, email, up.c7).order.value;
      OrderLookup(cfg, orderId, email, up) ==
        Outcome(Found(FoundContext(orderId, o, C7Status.StatusLineFromC7(o)), None), Resolve(orderId, email, up.c7).calls, None)
  {
  }

  /** A tracking-service 404 or error leaves the commerce system's line in place and no link. */
  lemma {:induction false} WsFailureKeepsC7Line(cfg: Config, orderId: string, email: string, up: Upstreams)
    requires up.ws.TransportError? || (up.ws.Reply? && !(200 <= up.ws.status < 300))
    requires OrderLookup(cfg, orderId, email, up).response.Found?
    ensures var o := Resolve(orderId, email, up.c7).order.value;
      OrderLookup(cfg, orderId, email, up).response == Found(FoundContext(orderId, o, C7Status.StatusLineFromC7(o)), None)
  {
    var o := Resolve(orderId, email, up.c7).order.value;
    assert !WsLineUsed(cfg, o, up.ws);
  }

  /** A found body starts with the id as sent and lists the items. */
  lemma {:induction false} FoundContextShape(cfg: Config, orderId: string, email: string, up: Upstreams)
    requires OrderLookup(cfg, orderId, email, up).response.Found?
    ensures var c := OrderLookup(cfg, orderId, email, up).response.context;
      var head := "Order " + orderId + " found. Items: ";
      |c| > |head| && c[..|head|] == head
  {
  }

  /**
   * The as-written service: `_fetch_c7_json` and `fetch_ws_tracking` evaluate
   * `await r.text()`, but `r.text` is a str property of the HTTP response, so
   * calling it raises TypeError ('str' object is not callable) once the request
   * has been sent, before anything is awaited. Each handler then sees a failed
   * call, whatever the upstream services would have answered.
   */
  const AsWrittenReplies := Upstreams(C7Replies(None, None, None), TransportError)

  /** `order_lookup` as written: every upstream reply is lost to the raised exception. */
  function OrderLookupAsWritten(cfg: Config, orderId: string, email: string, up: Upstreams): (out: Outcome)
    ensures out.response.NotFound?
    ensures MatchesDefaultPattern(orderId) ==> |out.c7Calls| == 1 && out.c7Calls[0].SearchOrders?
  {
    var lost := AsWrittenReplies;
    var r := OrderLookup(cfg, orderId, email, lost);
    if MatchesDefaultPattern(orderId) then
      GateImpliesParse(orderId);
      FailedSearchStops(orderId, email, lost.c7, lost.c7);
      r
    else r
  }

  /** As written, no order is ever found, whatever the commerce system holds. */
  lemma {:induction false} AsWrittenNeverFound(cfg: Config, orderId: string, email: string, up: Upstreams)
    ensures OrderLookupAsWritten(cfg, orderId, email, up).response == NotFound(NotFoundContext(orderId))
  {
  }
}

=== FILE: order_id.dfy ===
/**
 * The order-identifier gate of the lookup route and the order-number parser
 * used before searching the commerce system.
 */
module OrderId {
  import opened Wrappers
  import opened Text

  /**
   * The default ORDER_ID_REGEX `^\d{4,6}$` applied to the stripped identifier:
   * four to six ASCII digits, so the number they denote is below a million.
   */
  function MatchesDefaultPattern(orderId: string): (ok: bool)
    ensures ok ==> |orderId| >= 4 && 0 <= DecimalValue(Strip(orderId)) <= 999999
  {
    var t := Strip(orderId);
    if 4 <= |t| <= 6 && IsDigitString(t) then
      DecimalValueBound(t);
      Pow10Monotone(|t|, 6);
      true
    else false
  }

  /** Digits with single underscores between them, the body Python's int() accepts in base 10. */
  predicate IsDigitGroups(b: string) {
    && |b| > 0
    && IsDigit(b[0])
    && IsDigit(b[|b| - 1])
    && (forall i :: 0 <= i < |b| ==> IsDigit(b[i]) || b[i] == '_')
    && (forall i :: 0 <= i < |b| - 1 ==> IsDigit(b[i]) || IsDigit(b[i + 1]))
  }

  predicate IsSign(c: char) {
    c == '+' || c == '-'
  }

  /** A base-10 integer literal as Python's int() reads it once whitespace is stripped: an optional sign, then digit groups. */
  predicate IsIntLiteral(t: string) {
    IsDigitGroups(t) || (|t| > 0 && IsSign(t[0]) && IsDigitGroups(t[1..]))
  }

  /**
   * The whitespace Python's int() skips around a literal: space and the
   * controls \t \n \v \f \r. The separators 0x1C-0x1F, which str.strip()
   * removes, are not among them.
   */
  predicate IsIntSpace(c: char) {
    c == ' ' || 9 <= c as int <= 13
  }

  predicate NoIntEdgeSpace(s: string) {
    s == [] || (!IsIntSpace(s[0]) && !IsIntSpace(s[|s| - 1]))
  }

  /** The suffix of s left once its leading int() whitespace is dropped. */
  function IntStripFront(s: string): (r: string)
    ensures |r| <= |s| && r == s[|s| - |r|..]
    ensures forall m :: 0 <= m < |s| - |r| ==> IsIntSpace(s[m])
    ensures r == [] || !IsIntSpace(r[0])
  {
    if |s| > 0 && IsIntSpace(s[0]) then IntStripFront(s[1..]) else s
  }

  /** The prefix of s left once its trailing int() whitespace is dropped. */
  function IntStripBack(s: string): (r: string)
    ensures |r| <= |s| && r == s[..|r|]
    ensures forall m :: |r| <= m < |s| ==> IsIntSpace(s[m])
    ensures r == [] || !IsIntSpace(r[|r| - 1])
  {
    if |s| > 0 && IsIntSpace(s[|s| - 1]) then IntStripBack(s[..|s| - 1]) else s
  }

  /** The text int() reads: s without int() whitespace at either end; text without any is kept. */
  function IntStrip(s: string): (r: string)
    ensures |r| <= |s|
    ensures NoIntEdgeSpace(r)
    ensures NoIntEdgeSpace(s) ==> r == s
  {
    var f := IntStripFront(s);
    var r := IntStripBack(f);
    assert r != [] ==> r[0] == f[0];
    r
  }

  /** Python's int(s) on a string: int() whitespace around the literal is ignored; anything but an integer literal is a ValueError, here None. */
  function PyInt(s: string): (r: Option<int>)
    ensures r.Some? <==> IsIntLiteral(IntStrip(s))
    ensures r.Some? && r.value < 0 ==> IntStrip(s)[0] == '-'
    ensures r.Some? ==>
      r.value == (if IntStrip(s)[0] == '-' then -(DecimalValue(IntStrip(s)) as int) else DecimalValue(IntStrip(s)))
  {
    LiteralValue(IntStrip(s))
  }

  /** The value of text that int() reads without further stripping. */
  function LiteralValue(t: string): (r: Option<int>)
    ensures r.Some? <==> IsIntLiteral(t)
    ensures r.Some? && r.value < 0 ==> t[0] == '-'
    ensures r.Some? ==> r.value == (if t[0] == '-' then -(DecimalValue(t) as int) else DecimalValue(t))
  {
    if |t| > 0 && IsSign(t[0]) then
      if IsDigitGroups(t[1..]) then
        DecimalValueSkipsFirst(t);
        var v: int := DecimalValue(t[1..]);
        Some(if t[0] == '-' then -v else v)
      else None
    else if IsDigitGroups(t) then Some(DecimalValue(t))
    else None
  }

  /** The identifier with surrounding whitespace and one leading '#' removed. */
  function HashStripped(orderId: string): string {
    var s := Strip(orderId);
    if |s| > 0 && s[0] == '#' then s[1..] else s
  }

  /** `_parse_order_number`: strip, drop one leading '#', then int(); None where int() would raise. */
  function ParseOrderNumber(orderId: string): (r: Option<int>)
    ensures r.Some? <==> IsIntLiteral(IntStrip(HashStripped(orderId)))
  {
    PyInt(HashStripped(orderId))
  }

  lemma NatToStringIsDigitGroups(n: nat)
    ensures IsDigitGroups(NatToString(n))
    ensures NoEdgeSpace(NatToString(n))
  {
  }

  /** int(str(i)) == i: the text Python prints for an integer parses back to it. */
  lemma PyIntOfIntToString(i: int)
    ensures PyInt(IntToString(i)) == Some(i)
  {
    var s := IntToString(i);
    if i < 0 {
      NatToStringIsDigitGroups(-i);
      DecimalOfNatToString(-i);
      assert NoIntEdgeSpace(s);
      assert s[1..] == NatToString(-i);
    } else {
      NatToStringIsDigitGroups(i);
      DecimalOfNatToString(i);
    }
  }

  /** An order number written plainly or with a leading '#' parses back to itself. */
  lemma ParseOrderNumberRoundTrip(i: int)
    ensures ParseOrderNumber(IntToString(i)) == Some(i)
    ensures ParseOrderNumber("#" + IntToString(i)) == Some(i)
  {
    var s := IntToString(i);
    PyIntOfIntToString(i);
    LiteralEdges(s);
    assert HashStripped(s) == s;
    var h := "#" + s;
    assert NoEdgeSpace(h) by {
      assert h[|h| - 1] == s[|s| - 1];
    }
    assert h[1..] == s;
    assert HashStripped(h) == s;
  }

  /** Four to six digits pass the gate, whatever whitespace surrounds them. */
  lemma {:induction false} GateAcceptsPaddedDigits(pre: string, d: string, post: string)
    requires forall i :: 0 <= i < |pre| ==> IsSpace(pre[i])
    requires forall i :: 0 <= i < |post| ==> IsSpace(post[i])
    requires 4 <= |d| <= 6 && IsDigitString(d)
    ensures MatchesDefaultPattern(pre + d + post)
  {
    var s := pre + d + post;
    var a, e := |pre|, |pre| + |d|;
    assert forall m :: 0 <= m < a ==> s[m] == pre[m];
    assert forall m :: e <= m < |s| ==> s[m] == post[m - e];
    assert forall m :: a <= m < e ==> s[m] == d[m - a];
    assert !IsSpace(s[a]) && !IsSpace(s[e - 1]);
    assert SkipSpace(s, 0) == a;
    assert SkipSpaceBack(s, a, |s|) == e;
    assert Strip(s) == s[a..e] == d;
  }

  /** The gate refuses every identifier written with a leading '#', although the parser would drop it. */
  lemma {:induction false} GateRejectsHash(digits: string)
    ensures !MatchesDefaultPattern("#" + digits)
    ensures IsIntLiteral(digits) ==> ParseOrderNumber("#" + digits) == PyInt(digits)
  {
    var h := "#" + digits;
    StripKeepsFirst(h);
    if IsIntLiteral(digits) {
      assert NoEdgeSpace(h) by {
        assert IsDigit(digits[|digits| - 1]);
        assert h[|h| - 1] == digits[|digits| - 1];
      }
      assert h[1..] == digits;
    }
  }

  /**
   * str.strip() and int() disagree on the separators 0x1C-0x1F: in front of
   * the number the first strip removes one, but after a '#' it is left for
   * int(), which refuses it.
   */
  lemma {:induction false} SeparatorAfterHashRefused(c: char, d: string)
    requires 28 <= c as int <= 31
    requires IsIntLiteral(d)
    ensures ParseOrderNumber([c] + d) == PyInt(d) != None
    ensures ParseOrderNumber("#" + [c] + d) == None
  {
    LiteralEdges(d);
    LeadingSeparatorStripped(c, d);
    HashKeepsSeparator(c, d);
    SeparatorRefusedByInt(c, d);
  }

  lemma HashKeepsSeparator(c: char, d: string)
    requires 28 <= c as int <= 31
    requires |d| > 0 && NoEdgeSpace(d)
    ensures HashStripped("#" + [c] + d) == [c] + d
  {
    var h := "#" + [c] + d;
    assert h[1..] == [c] + d;
    assert h[0] == '#' && h[|h| - 1] == d[|d| - 1];
    assert NoEdgeSpace(h);
  }

  lemma SeparatorRefusedByInt(c: char, d: string)
    requires 28 <= c as int <= 31
    requires |d| > 0 && NoIntEdgeSpace(d)
    ensures PyInt([c] + d) == None
  {
    var s := [c] + d;
    assert s[0] == c && s[|s| - 1] == d[|d| - 1];
    assert NoIntEdgeSpace(s);
    assert IntStrip(s) == s;
    assert !IsDigit(s[0]) && !IsSign(s[0]);
    assert !IsIntLiteral(s);
  }

  lemma LeadingSeparatorStripped(c: char, d: string)
    requires 28 <= c as int <= 31
    requires |d| > 0 && NoEdgeSpace(d) && d[0] != '#'
    ensures HashStripped([c] + d) == d
  {
    var s := [c] + d;
    assert s[1..] == d;
    assert SkipSpace(s, 0) == 1 by {
      assert IsSpace(s[0]) && s[1] == d[0];
    }
    assert SkipSpaceBack(s, 1, |s|) == |s| by {
      assert s[|s| - 1] == d[|d| - 1];
    }
  }

  /** An integer literal starts with a digit or sign and ends with a digit, so no strip touches it. */
  lemma LiteralEdges(d: string)
    requires IsIntLiteral(d)
    ensures |d| > 0 && (IsDigit(d[0]) || IsSign(d[0])) && IsDigit(d[|d| - 1])
    ensures NoEdgeSpace(d) && NoIntEdgeSpace(d) && IntStrip(d) == d && d[0] != '#'
  {
    if !IsDigitGroups(d) {
      assert d[|d| - 1] == d[1..][|d| - 2];
    }
  }

  lemma {:induction false} Pow10Monotone(m: nat, n: nat)
    requires m <= n
    ensures Pow10(m) <= Pow10(n)
  {
    if m < n {
      Pow10Monotone(m, n - 1);
    }
  }

  /** Every identifier that passes the default gate parses, to its digits' value, which lies in 0..999999. */
  lemma GateImpliesParse(orderId: string)
    requires MatchesDefaultPattern(orderId)
    ensures ParseOrderNumber(orderId) == Some(DecimalValue(Strip(orderId)))
    ensures 0 <= ParseOrderNumber(orderId).value <= 999999
  {
    var t := Strip(orderId);
    assert t[0] != '#' && !IsSign(t[0]) by { assert IsDigit(t[0]); }
    assert HashStripped(orderId) == t;
    assert IntStrip(t) == t by {
      assert IsDigit(t[|t| - 1]);
      assert NoIntEdgeSpace(t);
    }
    assert IsDigitGroups(t);
    assert PyInt(t) == Some(DecimalValue(t));
    DecimalValueBound(t);
    Pow10Monotone(|t|, 6);
    assert Pow10(6) == 1000000;
  }
}

=== FILE: text.dfy ===
/**
 * The string primitives the service relies on, restricted to ASCII text:
 * Python's str.strip(), str.lower(), str.isdigit(), str(int), str.split(sep)
 * and str.join, plus the truthiness of an optional string field.
 */
module Text {
  import opened Wrappers

  /** Python's str.isspace() on ASCII: space, \t \n \v \f \r and the separators 0x1C..0x1F. */
  predicate IsSpace(c: char) {
    c == ' ' || (9 <= c as int <= 13) || (28 <= c as int <= 31)
  }

  /** Neither end of s is whitespace. */
  predicate NoEdgeSpace(s: string) {
    s == [] || (!IsSpace(s[0]) && !IsSpace(s[|s| - 1]))
  }

  /** The first index at or after i that is not whitespace, or |s| when there is none. */
  function SkipSpace(s: string, i: nat): (j: nat)
    requires i <= |s|
    ensures i <= j <= |s|
    ensures forall m :: i <= m < j ==> IsSpace(s[m])
    ensures j < |s| ==> !IsSpace(s[j])
    decreases |s| - i
  {
    if i < |s| && IsSpace(s[i]) then SkipSpace(s, i + 1) else i
  }

  /** The end of s[lo..j] once its trailing whitespace is dropped. */
  function SkipSpaceBack(s: string, lo: nat, j: nat): (e: nat)
    requires lo <= j <= |s|
    ensures lo <= e <= j
    ensures forall m :: e <= m < j ==> IsSpace(s[m])
    ensures e > lo ==> !IsSpace(s[e - 1])
  {
    if j > lo && IsSpace(s[j - 1]) then SkipSpaceBack(s, lo, j - 1) else j
  }

  /** Python's str.strip(): the result has no whitespace at either end, and an input without any is kept. */
  function Strip(s: string): (r: string)
    ensures |r| <= |s|
    ensures NoEdgeSpace(r)
    ensures NoEdgeSpace(s) ==> r == s
  {
    var a := SkipSpace(s, 0);
    var b := SkipSpaceBack(s, a, |s|);
    assert NoEdgeSpace(s) && s != [] ==> a == 0 && b == |s|;
    s[a..b]
  }

  /**
   * Strip removes whitespace only: the result is the slice of the input that
   * starts at its first non-whitespace character, and everything before and
   * after that slice is whitespace.
   */
  lemma {:induction false} StripRemovesOnlySpace(s: string)
    ensures var a := SkipSpace(s, 0); var r := Strip(s);
      && a + |r| <= |s| && r == s[a..a + |r|]
      && (forall m :: 0 <= m < a ==> IsSpace(s[m]))
      && (forall m :: a + |r| <= m < |s| ==> IsSpace(s[m]))
  {
  }

  /** A text whose first character is not whitespace keeps that character first once stripped. */
  lemma {:induction false} StripKeepsFirst(s: string)
    requires |s| > 0 && !IsSpace(s[0])
    ensures |Strip(s)| > 0 && Strip(s)[0] == s[0]
  {
    assert SkipSpace(s, 0) == 0;
    assert SkipSpaceBack(s, 0, |s|) > 0;
  }

  /** Python's str.lower() on ASCII letters; every other character is kept. */
  function LowerChar(c: char): char {
    if 'A' <= c <= 'Z' then (c as int + 32) as char else c
  }

  predicate IsUpper(c: char) {
    'A' <= c <= 'Z'
  }

  function Lower(s: string): (r: string)
    ensures |r| == |s|
    ensures forall i :: 0 <= i < |r| ==> !IsUpper(r[i])
    ensures (forall i :: 0 <= i < |s| ==> !IsUpper(s[i])) ==> r == s
    ensures forall i {:trigger r[i]} :: 0 <= i < |s| ==> r[i] as int == s[i] as int + (if IsUpper(s[i]) then 32 else 0)
  {
    seq(|s|, i requires 0 <= i < |s| => LowerChar(s[i]))
  }

  /** Python truthiness of an optional string field: present, not null and not empty. */
  predicate Truthy(v: Option<string>) {
    v.Some? && v.value != ""
  }

  /** Python's `v or fallback` on an optional string field. */
  function Or(v: Option<string>, fallback: string): string {
    if Truthy(v) then v.value else fallback
  }

  predicate IsDigit(c: char) {
    '0' <= c <= '9'
  }

  /** Python's str.isdigit() on ASCII text: non-empty and every character a digit. */
  predicate IsDigitString(s: string) {
    |s| > 0 && forall i :: 0 <= i < |s| ==> IsDigit(s[i])
  }

  function DigitValue(c: char): nat
    requires IsDigit(c)
  {
    c as int - '0' as int
  }

  function DigitChar(d: nat): (c: char)
    requires d < 10
    ensures IsDigit(c) && DigitValue(c) == d
  {
    ('0' as int + d) as char
  }

  /** Decimal value of the digits of s, read left to right; any other character is skipped. */
  function DecimalValue(s: string): nat {
    if s == [] then 0
    else
      var c := s[|s| - 1];
      if IsDigit(c) then DecimalValue(s[..|s| - 1]) * 10 + DigitValue(c)
      else DecimalValue(s[..|s| - 1])
  }

  function Pow10(n: nat): (r: nat)
    ensures r >= 1
  {
    if n == 0 then 1 else 10 * Pow10(n - 1)
  }

  /** A leading character that is not a digit, such as a sign, adds nothing to the decimal value. */
  lemma {:induction false} DecimalValueSkipsFirst(s: string)
    requires |s| > 0 && !IsDigit(s[0])
    ensures DecimalValue(s) == DecimalValue(s[1..])
  {
    if |s| > 1 {
      var init := s[..|s| - 1];
      DecimalValueSkipsFirst(init);
      assert init[1..] == s[1..][..|s[1..]| - 1];
      assert s[1..][|s[1..]| - 1] == s[|s| - 1];
    }
  }

  /** A string of n digits denotes a value below 10^n. */
  lemma {:induction false} DecimalValueBound(s: string)
    requires forall i :: 0 <= i < |s| ==> IsDigit(s[i])
    ensures DecimalValue(s) < Pow10(|s|)
  {
    if s != [] {
      DecimalValueBound(s[..|s| - 1]);
    }
  }

  /** Python's str() of a non-negative int: decimal digits without leading zeros. */
  function NatToString(n: nat): (r: string)
    ensures IsDigitString(r)
    ensures r[0] == '0' ==> n == 0
  {
    if n < 10 then [DigitChar(n)] else NatToString(n / 10) + [DigitChar(n % 10)]
  }

  /** Reading back the text of a natural number gives the number. */
  lemma {:induction false} DecimalOfNatToString(n: nat)
    ensures DecimalValue(NatToString(n)) == n
  {
    if n >= 10 {
      var s := NatToString(n);
      assert s[..|s| - 1] == NatToString(n / 10);
      DecimalOfNatToString(n / 10);
    }
  }

  /** Python's str() of an int. */
  function IntToString(i: int): (r: string)
    ensures |r| > 0
    ensures i < 0 <==> r[0] == '-'
  {
    if i < 0 then "-" + NatToString(-i) else NatToString(i)
  }

  /** Python's sep.join(parts). */
  function Join(parts: seq<string>, sep: string): string {
    if |parts| == 0 then ""
    else if |parts| == 1 then parts[0]
    else parts[0] + sep + Join(parts[1..], sep)
  }

  /** A join of pieces starts with the first piece and ends with the last. */
  lemma {:induction false} JoinEnds(parts: seq<string>, sep: string)
    requires |parts| > 0
    ensures var j := Join(parts, sep);
      && |parts[0]| <= |j| && j[..|parts[0]|] == parts[0]
      && |parts[|parts| - 1]| <= |j| && j[|j| - |parts[|parts| - 1]|..] == parts[|parts| - 1]
  {
    if |parts| > 1 {
      var rest := parts[1..];
      JoinEnds(rest, sep);
      assert rest[|rest| - 1] == parts[|parts| - 1];
    }
  }

  /** Python's s.split(sep) for a one-character separator: never empty, and no piece holds sep. */
  function Split(s: string, sep: char): (parts: seq<string>)
    ensures |parts| > 0
    ensures forall i :: 0 <= i < |parts| ==> sep !in parts[i]
  {
    if |s| == 0 then [""]
    else
      var rest := Split(s[1..], sep);
      if s[0] == sep then [""] + rest
      else [[s[0]] + rest[0]] + rest[1..]
  }

  /** Joining the pieces of a split with the same separator gives back the original text. */
  lemma {:induction false} JoinSplit(s: string, sep: char)
    ensures Join(Split(s, sep), [sep]) == s
  {
    if |s| > 0 {
      var rest := Split(s[1..], sep);
      JoinSplit(s[1..], sep);
      if s[0] != sep {
        if |rest| > 1 {
          assert Join(rest, [sep]) == rest[0] + [sep] + Join(rest[1..], [sep]);
        }
      }
    }
  }

  /** Splitting a separator-free text gives it back whole. */
  lemma {:induction false} SplitNoSeparator(s: string, sep: char)
    requires sep !in s
    ensures Split(s, sep) == [s]
  {
    if |s| > 0 {
      assert s[0] != sep by { assert s[0] in s; }
      SplitNoSeparator(s[1..], sep);
      assert [s[0]] + s[1..] == s;
    }
  }

  /** Splitting distributes over a separator that follows a separator-free piece. */
  lemma {:induction false} SplitAtSeparator(a: string, b: string, sep: char)
    requires sep !in a
    ensures Split(a + [sep] + b, sep) == [a] + Split(b, sep)
  {
    if |a| > 0 {
      assert a[0] != sep by { assert a[0] in a; }
      assert (a + [sep] + b)[1..] == a[1..] + [sep] + b;
      SplitAtSeparator(a[1..], b, sep);
      assert [a[0]] + a[1..] == a;
    } else {
      assert (a + [sep] + b)[1..] == b;
    }
  }

  /** Splitting a join of separator-free pieces gives back the pieces. */
  lemma {:induction false} SplitJoin(parts: seq<string>, sep: char)
    requires |parts| > 0
    requires forall i :: 0 <= i < |parts| ==> sep !in parts[i]
    ensures Split(Join(parts, [sep]), sep) == parts
  {
    if |parts| == 1 {
      SplitNoSeparator(parts[0], sep);
    } else {
      SplitJoin(parts[1..], sep);
      SplitAtSeparator(parts[0], Join(parts[1..], [sep]), sep);
    }
  }
}

=== FILE: wrappers.dfy ===
/** Optional values: the model's stand-in for Python's `None` and for an upstream call that failed. */
module Wrappers {

  datatype Option<+T> = None | Some(value: T) {

    /** Returns the value held in Some, or the given default when None. */
    function GetOr(default: T): T {
      match this
      case Some(v) => v
      case None => default
    }
  }
}

=== FILE: ws_tracking.dfy ===
/**
 * The shipping-tracking service: `fetch_ws_tracking`, which decides whether to
 * ask and how to read the reply, and `_status_line_from_ws`, which turns a
 * reply into the status sentence and the tracking link. The reply's JSON is
 * kept only as far as these two read it.
 */
module WsTracking {
  import opened Wrappers
  import opened Text
  import C7Status

  /** The package fields the sentence reads; None when the key is absent or null. */
  datatype Package = Package(
    statusDescription: Option<string>,
    carrierStatus: Option<string>,
    estimatedDeliveryDate: Option<string>,
    trackingUrl: Option<string>,
    embeddedCarrierTrackingUrl: Option<string>)

  /** An element of a `details`/`packages` list: an object, or anything on which `.get` raises. */
  datatype Element = PackageObject(pkg: Package) | NonObject

  /**
   * The value of the `details` or `packages` key: absent, null, a list, or any
   * other JSON value (string, number, boolean, object), of which only the
   * truthiness matters, since indexing or `.get` on it raises.
   */
  datatype Field = Missing | Null | Array(elems: seq<Element>) | Other(truthy: bool)

  /** The decoded reply body: an object, JSON null (which `r.json()` returns as None), or any other JSON value with its truthiness. */
  datatype Payload =
    | Object(details: Field, packages: Field, otherKeys: bool)
    | JsonNull
    | NonObjectPayload(truthy: bool)

  /** What the tracking endpoint answered: no answer at all, or a status and a body (None: not JSON). */
  datatype WsReply = TransportError | Reply(status: int, body: Option<Payload>)

  /** `fetch_ws_tracking`'s three outcomes: None returned (not asked, a 404, or a JSON null body), a payload returned, or an exception. */
  datatype WsOutcome = NoData | Data(payload: Payload) | Failed

  predicate FieldTruthy(f: Field) {
    match f
    case Missing => false
    case Null => false
    case Array(es) => es != []
    case Other(t) => t
  }

  /** Python truthiness of the payload: an object is truthy when it has any key. */
  predicate PayloadTruthy(p: Payload) {
    match p
    case Object(d, k, o) => d != Missing || k != Missing || o
    case JsonNull => false
    case NonObjectPayload(t) => t
  }

  /**
   * `fetch_ws_tracking`: returns NoData without asking when the service is
   * disabled, the key is empty or there are no numbers; otherwise asks once
   * (the flag `asked`), reads 404 as NoData, any other non-2xx status, a
   * transport error or an undecodable body as Failed, a 2xx JSON null body as
   * NoData (`r.json()` is None), and any other 2xx JSON body as Data. The body
   * is read with the property `r.text` (line 240 calls it, which raises; that
   * is the finding modelled in `Lookup.OrderLookupAsWritten`).
   */
  function FetchWsTracking(enabled: bool, apiKey: string, numbers: seq<string>, reply: WsReply): (r: (WsOutcome, bool))
    ensures r.1 <==> enabled && apiKey != "" && numbers != []
    ensures !r.1 ==> r.0 == NoData
    ensures r.0.Data? <==>
      r.1 && reply.Reply? && 200 <= reply.status < 300 && reply.body.Some? && reply.body.value != JsonNull
    ensures r.0.Data? ==> r.0.payload == reply.body.value
    ensures r.0 == NoData <==>
      || !r.1
      || (reply.Reply? && (reply.status == 404 || (200 <= reply.status < 300 && reply.body == Some(JsonNull))))
  {
    if !(enabled && apiKey != "" && numbers != []) then (NoData, false)
    else
      var outcome :=
        match reply
        case TransportError => Failed
        case Reply(status, body) =>
          if status == 404 then NoData
          else if !(200 <= status < 300) then Failed
          else if body.None? then Failed
          else if body.value.JsonNull? then NoData
          else Data(body.value);
      (outcome, true)
  }

  const Prefix := "Order is on its way ("

  /** The package read when the picked list is empty or absent: every field missing. */
  const EmptyPackage := Package(None, None, None, None, None)

  /** `details or packages or []`: the first truthy of the two, else an empty list. */
  function Picked(p: Payload): (f: Field)
    requires p.Object?
    ensures FieldTruthy(p.details) ==> f == p.details
    ensures !FieldTruthy(p.details) && FieldTruthy(p.packages) ==> f == p.packages
    ensures !FieldTruthy(p.details) && !FieldTruthy(p.packages) ==> !FieldTruthy(f)
  {
    if FieldTruthy(p.details) then p.details
    else if FieldTruthy(p.packages) then p.packages
    else Array([])
  }

  /** The payload makes the source raise inside its handler: not an object, a picked value that is not a list, or a first element that is not an object. */
  predicate Malformed(p: Payload) {
    || !p.Object?
    || (var f := Picked(p); f.Other? && f.truthy)
    || (var f := Picked(p); f.Array? && f.elems != [] && f.elems[0].NonObject?)
  }

  /** The package the sentence is built from: the first element of the picked list, or the empty package. */
  function FirstPackage(p: Payload): (pkg: Package)
    requires !Malformed(p)
    ensures var f := Picked(p); FieldTruthy(f) ==> f.Array? && f.elems[0] == PackageObject(pkg)
    ensures !FieldTruthy(Picked(p)) ==> pkg == EmptyPackage
  {
    var f := Picked(p);
    if FieldTruthy(f) then f.elems[0].pkg else EmptyPackage
  }

  /** `statusDescription or carrierStatus or "in transit"`. */
  function StatusOf(pkg: Package): (s: string)
    ensures s != ""
    ensures Truthy(pkg.statusDescription) ==> s == pkg.statusDescription.value
    ensures !Truthy(pkg.statusDescription) && Truthy(pkg.carrierStatus) ==> s == pkg.carrierStatus.value
    ensures !Truthy(pkg.statusDescription) && !Truthy(pkg.carrierStatus) ==> s == "in transit"
  {
    Or(pkg.statusDescription, Or(pkg.carrierStatus, "in transit"))
  }

  /** `trackingUrl or embeddedCarrierTrackingUrl`: the first when truthy, else the second as it is. */
  function UrlOf(pkg: Package): (u: Option<string>)
    ensures Truthy(pkg.trackingUrl) ==> u == pkg.trackingUrl
    ensures !Truthy(pkg.trackingUrl) ==> u == pkg.embeddedCarrierTrackingUrl
  {
    if Truthy(pkg.trackingUrl) then pkg.trackingUrl else pkg.embeddedCarrierTrackingUrl
  }

  /** The sentence for one package, with the delivery clause when its date is truthy. */
  function PackageLine(pkg: Package): (line: string)
    ensures |line| > |Prefix| && line[..|Prefix|] == Prefix
    ensures var base := Prefix + StatusOf(pkg) + ").";
      && |line| >= |base|
      && line[..|base|] == base
      && (Truthy(pkg.estimatedDeliveryDate) <==> |line| > |base|)
      && (Truthy(pkg.estimatedDeliveryDate) ==>
            line[|base|..] == " Estimated delivery " + pkg.estimatedDeliveryDate.value + ".")
  {
    var base := Prefix + StatusOf(pkg) + ").";
    if Truthy(pkg.estimatedDeliveryDate) then
      base + " Estimated delivery " + pkg.estimatedDeliveryDate.value + "."
    else base
  }

  /**
   * `_status_line_from_ws`: the sentence and link of the first package, or the
   * fixed on-its-way sentence with no link when the payload is malformed. It never fails.
   */
  function StatusLineFromWs(p: Payload): (r: (string, Option<string>))
    ensures Malformed(p) ==> r == (C7Status.OnItsWay, None)
    ensures !Malformed(p) ==> r == (PackageLine(FirstPackage(p)), UrlOf(FirstPackage(p)))
    ensures r.0 == C7Status.OnItsWay <==> Malformed(p)
  {
    if Malformed(p) then (C7Status.OnItsWay, None)
    else
      var pkg := FirstPackage(p);
      var line := PackageLine(pkg);
      assert line[..|Prefix|] == Prefix;
      assert C7Status.OnItsWay[19] != Prefix[19];
      (line, UrlOf(pkg))
  }

  /** Only the first element of the picked list is read: elements after it never change the result. */
  lemma {:induction false} OnlyFirstPackageRead(p: Payload, q: Payload)
    requires p.Object? && q.Object?
    requires Picked(p).Array? && Picked(q).Array?
    requires Picked(p).elems != [] && Picked(q).elems != []
    requires Picked(p).elems[0] == Picked(q).elems[0]
    ensures StatusLineFromWs(p) == StatusLineFromWs(q)
  {
  }

  /** A non-empty `details` list wins: the `packages` value is then never read. */
  lemma {:induction false} DetailsTakePrecedence(es: seq<Element>, k1: Field, k2: Field, o: bool)
    requires es != []
    ensures StatusLineFromWs(Object(Array(es), k1, o)) == StatusLineFromWs(Object(Array(es), k2, o))
  {
  }

  /** With neither list present the sentence is the in-transit one and there is no link. */
  lemma {:induction false} NoPackagesInTransit(o: bool)
    ensures StatusLineFromWs(Object(Missing, Missing, o)) == ("Order is on its way (in transit).", None)
  {
    var p := Object(Missing, Missing, o);
    assert Picked(p) == Array([]);
    assert !Malformed(p);
    var pkg := FirstPackage(p);
    assert pkg == EmptyPackage;
    assert StatusOf(pkg) == "in transit";
    assert PackageLine(pkg) == Prefix + "in transit" + ").";
    assert UrlOf(pkg) == None;
    assert Prefix + "in transit" + ")." == "Order is on its way (in transit).";
    assert StatusLineFromWs(p) == (PackageLine(pkg), UrlOf(pkg));
  }

  /** The sentence names the package's status description when it has one, and the delivery date when truthy. */
  lemma {:induction false} PackageLineExample(status: string, eta: string)
    requires status != "" && eta != ""
    ensures PackageLine(Package(Some(status), None, Some(eta), None, None)) ==
      "Order is on its way (" + status + ")." + " Estimated delivery " + eta + "."
  {
    var pkg := Package(Some(status), None, Some(eta), None, None);
    assert StatusOf(pkg) == status;
  }
}
